=== FILE: README.md ===
# reportgen column classification and grouping, in Dafny

This project models the decision logic of `reportgen/analysis.py`, the part of
reportgen that decides what kind of variable each column of a table is and
merges numbered numeric columns into groups:

- `dtype_detection` decides one column's variable type: `number`, `category`,
  `datetime`, `text`, `text_st` (structured text such as IDs) or none. It may
  also rewrite the column. Float columns holding whole numbers become integers,
  timestamp strings become timestamps, columns with few distinct values become
  categorical, and percent strings become fractions.
- `type_of_var` maps every column name to that type, with the datetime collapse
  switched off.
- `var_detection` classifies every column. With `combine` on, it merges a run
  of two or more numeric columns named `<prefix><number>` into one
  `group_number` variable. The run must share one prefix, and its last number
  minus its first must equal the run length minus one. The numbers in between
  are not checked, so `Item1, Item5, Item3` merges (`Scan.ConfirmedIff`).

A column is a storage kind plus a sequence of optional cells. The storage kind
is `Numeric`, `Object`, `Datetime64` (zone-less timestamps), `DatetimeTz`
(timestamps at one fixed UTC offset), `Categorical` or `Unsupported`. A cell is
a number, a string, a timestamp, or one of the three missing markers: NaN,
Python's `None` or pandas' `NaT`. The markers behave alike for `count()` and
`dropna()`, but `'%s'` renders them as `nan`, `None` and `NaT`, so the length
scan of line 153 skips a NaN and counts a `None` as 4 and a `NaT` as 3. The
classifier's in-place rewrite becomes a returned column. Its exceptions become
`Err` values:

- the `.str` accessor on an object column whose present values are all
  numbers or all timestamps;
- numpy's `TypeError` at line 168, when `np.issubdtype` is given a categorical
  or zone-aware dtype (only with the datetime collapse off, as `type_of_var`
  runs it);
- the same `TypeError` at line 180, for a zone-aware column that line 166 or
  168 did not collapse to categories;
- `float()` on a percent string it cannot read;
- `.iloc[0]` on a column with no values;
- a label shared by two columns;
- the `KeyError` of the grouping pass.

The grouping loop does not advance past a run it rejects, so on such input it
never ends. `Scan.ScanGroups` reports that as `Stalled`, and
`Detect.VarDetection` reports it as `Diverges`. The contracts prove that the
source loop really never leaves that state.

Library behaviour follows pandas 0.25 to 1.0 with the numpy of that time.
`is_string_dtype` accepts a categorical dtype, so categorical columns take the
string branch. The `.str` accessor accepts the values `infer_dtype` calls
string, empty, bytes, mixed or mixed-integer. It refuses all-number and
all-timestamp columns. `np.dtype` cannot interpret a categorical or a
zone-aware dtype. `pd.to_datetime` on strings that all carry one UTC offset
gives a zone-aware column; on zone-less strings, a zone-less one; on strings
with different offsets, or with an offset mixed with none, an object column of
timestamps (pandas 0.24 and later). `is_string_dtype` is false for a
zone-aware dtype, so lines 172-173 skip such a column.

Modules: `Values` (cells, columns, records, switches), `Names` (the regex split
of a name), `NumericBranch`, `TextBranch`, `Classify` (`dtype_detection`,
`type_of_var`), `Scan` (the grouping loop), `Emission` (building the result
list) and `Detect` (`var_detection`).

Three facts about the code shape the model:

- `n` in the `d < sqrt(n)` tests of lines 145, 165 and 168 is `count()` from
  line 137, the non-missing count, not the row count. The model states the
  tests as `d*d < n`.
- Every column ends up in exactly one result only when the grouping loop of
  lines 272-293 ends. The loop stalls on any run it rejects.
- The comment at line 171 describes percent strings becoming fractions
  (`21.12%-->0.2112`), and lines 172-173 do make the column numeric. When all
  the original strings have one length (`"21.12%"`, `"33.50%"`), the
  structured-text test at line 183 comes before the numeric test at line 196.
  It sees a float first value and reports `text`. See
  `TextBranch.PercentColumn`.

## Model

| member | source | states |
|---|---|---|
| Names.SplitName | reportgen/analysis.py:271-283 | A name has no match exactly when it holds no digit. Otherwise the match starts at the first digit's line, its prefix is the digit-free text before that digit, and its digit run is maximal. |
| Names.FirstMatchUnique | reportgen/analysis.py:271-283 | The first match of `(.*?)(\d+)` is unique, so a name determines its prefix and its number. |
| Names.SplitNameExamples | reportgen/analysis.py:271-283 | `Q12_a` splits into `Q` and 12. |
| Names.NoDigitExample | reportgen/analysis.py:271-283 | `score` has no match. |
| Names.LineBreakExample | reportgen/analysis.py:271-283 | The prefix of `a\nb7` is `b`, because `.` does not cross a newline. |
| Scan.KeyOf | reportgen/analysis.py:279-285 | What the scan reads of a record: whether its vtype is `number`, whether its name holds a digit, and the name's prefix and number. |
| Scan.KeyOfName | reportgen/analysis.py:279-285 | A numeric column named by a digit-free single-line prefix, one digit and a tail not starting with a digit has that prefix and that digit's value as its key. |
| Scan.RunLength | reportgen/analysis.py:278-285 | The run from `i` is the maximal stretch of numeric records whose names hold a digit. |
| Scan.DiffSumTelescopes | reportgen/analysis.py:290 | The summed neighbour differences equal the last suffix minus the first. |
| Scan.SamePrefixIsSingletonSet | reportgen/analysis.py:289 | "Every prefix equals the first" is the same test as "the set of prefixes has one element". |
| Scan.ConfirmedIff | reportgen/analysis.py:289-291 | A run is confirmed exactly when all its prefixes are equal and the last number minus the first is the run length minus one. The middle entries do not matter. |
| Scan.Decide | reportgen/analysis.py:273-291 | A candidate run is considered only when entries `i` and `i+1` are both numeric and the run has length at least 2. A run that is taken is confirmed. A run that is rejected is not. |
| Scan.BodyProgress | reportgen/analysis.py:273-293 | A skip advances `i` by 1. A taken run advances `i` by its length. A rejected run leaves the loop state unchanged, and it is the only case that does. |
| Scan.StallIsForever | reportgen/analysis.py:272-293 | Once an iteration leaves the state unchanged, every further iteration keeps it. |
| Scan.StuckLoops | reportgen/analysis.py:272-293 | When the loop reaches a state it keeps, the `while` guard holds after any number of iterations, so the loop never exits. |
| Scan.WellFormedGroups | reportgen/analysis.py:292-293 | Recorded groups are confirmed, maximal, all-numeric ranges of length at least 2, in ascending order and pairwise disjoint. |
| Scan.FixedGroups | reportgen/analysis.py:272-293 | The corrected scan advances `i` by one on a rejected run, as on a short one. It always produces well-formed groups, the first of which starts at or after its starting index. |
| Scan.FixedGroupsStep | reportgen/analysis.py:273-293 | Wherever the source's body advances, it records what the corrected scan records. |
| Scan.ScanGroups | reportgen/analysis.py:269-293 | Either the source loop exits after `steps` iterations, with the corrected scan's groups. Or it reaches a rejected run at `at`, where the guard holds forever. |
| Scan.SpanTestExamples | reportgen/analysis.py:279-291 | With each key read from the column name through `KeyOf`, `Item1, Item5, Item3` is accepted. `Item1, Item3, Item2` and `Q1_a, Q1_b, Q1_c` are rejected. |
| Scan.StallExample | reportgen/analysis.py:272-293 | On numeric columns `a1, b2`, keyed from their names, the run is rejected, the state does not change, and the loop never ends. |
| Emission.GroupAt | reportgen/analysis.py:303 | The dictionary keyed by first index finds the last group that starts at `i`, and finds nothing when no group starts there. |
| Emission.GroupVar | reportgen/analysis.py:297-302 | A group's record is an ordered `group_number` named `<first>--><last>`. Its `vlist` lists the member names in order, and its categories are those names. |
| Emission.EmitFrom | reportgen/analysis.py:305-313 | The pass can fail only with a `KeyError` at an index that some group covers but no group starts at. |
| Emission.WellFormedOrdered | reportgen/analysis.py:292-293 | The scan's groups are ascending, disjoint, non-empty ranges inside the list. |
| Emission.LayoutPartition | reportgen/analysis.py:294-313 | In the intended layout, the `vlist`s read in order are exactly the record names: every record is emitted once, in its original order. |
| Emission.GroupAtOrdered | reportgen/analysis.py:303 | With ordered groups, looking up a group's first index returns that group. |
| Emission.SkipInside | reportgen/analysis.py:310-312 | Inside a group whose names have been emitted, the pass emits nothing. |
| Emission.GroupStep | reportgen/analysis.py:310-312 | At a group's first index with a new name, the pass emits the group record and resumes after the group. |
| Emission.SingleStep | reportgen/analysis.py:306-309 | An uncovered record is emitted alone, with `vlist` set to its name and its other fields unchanged. |
| Emission.BetweenGroups | reportgen/analysis.py:305-306 | Between ordered groups, an index that starts no group is covered by none. |
| Emission.EmitFromLayout | reportgen/analysis.py:305-313 | From any point between groups, with all earlier names emitted, the literal pass yields the intended layout of what remains. |
| Emission.EmitIsLayout | reportgen/analysis.py:294-313 | With ordered groups and distinct names there is no `KeyError`. Each group appears once, at its first member's position, and the output's `vlist`s partition the records in order. |
| Emission.MissingGroupExample | reportgen/analysis.py:309-311 | With a repeated name (`B5, t, B5, B6`, group 2..4), the pass raises `KeyError` at index 3. |
| Emission.DroppedGroupExample | reportgen/analysis.py:309-312 | When every member name was emitted earlier, the group silently disappears. |
| Detect.Somes | reportgen/analysis.py:263-266 | The kept records are exactly the non-None results. |
| Detect.SomesConcat | reportgen/analysis.py:263-266 | Filtering a concatenation concatenates the filtered parts, so records keep their column order. |
| Detect.SomesCount | reportgen/analysis.py:263-266 | One record is kept per non-None result. |
| Detect.SomesDistinct | reportgen/analysis.py:263-266 | Records named after distinct column labels have distinct names. |
| Detect.Detections | reportgen/analysis.py:263-266 | The classification pass succeeds exactly when every column classifies. It keeps the labels and returns the non-None records. |
| Detect.DetectorsKeepNames | reportgen/analysis.py:150-205 | Both the literal and the corrected `dtype_detection` name every record after the column it classified. |
| Detect.DetectedNamesDistinct | reportgen/analysis.py:133-266 | For a classifier that names records after their columns, when the pass returns the records' names are distinct. A repeated label would have raised at `data[c].dtype`. |
| Detect.Combine | reportgen/analysis.py:269-313 | Either the grouped output partitions the records and equals the corrected layout, or the loop stalls at a rejected run and never exits. |
| Detect.VarDetection | reportgen/analysis.py:250-313 | A column's exception escapes. Without `combine`, the records come back as they are. With it, every record is emitted exactly once, or the call never returns. |
| Detect.VarDetectionFixed | reportgen/analysis.py:250-313 | The corrected `var_detection` fails only when a column raises. With `combine` on, it always emits every record exactly once. |
| Classify.DtypeDetection | reportgen/analysis.py:133-210 | The result is named after the column and is None exactly for an unknown storage kind. The column keeps its length. Only an object or categorical column can raise, and a categorical one only with the collapse off or when it parses as timestamps. The `TypeError` is raised exactly in two cases. One is a categorical column that did not parse, with the collapse off (line 168). The other is a column that parses to one shared UTC offset and is not collapsed (line 168 with the collapse off, line 180 otherwise). A column already stored as timestamps, zone-less or zone-aware, is `datetime` and comes back unchanged (lines 203-205). A `category` from a non-categorical column has at least one category. Every other type has empty categories and is unordered. |
| Classify.DtypeDetectionFixed | reportgen/analysis.py:138-150 | With the corrected integer rewrite, a numeric column keeps its length, its values in place and its `dropna()`. With NaN as its only missing marker, it comes back unchanged. Other storage kinds are classified as before. |
| Classify.ClassifyFrom | reportgen/analysis.py:263-266 | The pass succeeds exactly when every column from `j` on classifies without raising. Column by column, it returns each classification and each rewritten column. |
| Classify.ClassifiedLabelsDistinct | reportgen/analysis.py:133 | A pass that returns saw no repeated label. |
| Classify.TypesOf | reportgen/analysis.py:238-245 | With distinct labels, a name is in the map exactly when its column has a type, and it maps to that type. |
| Classify.RecordsExtend | reportgen/analysis.py:238-245 | Recording a column whose label is new keeps every earlier entry, adds the new column exactly when it has a type, and adds no other name. |
| Classify.TypeOfVar | reportgen/analysis.py:215-246 | `type_of_var` succeeds exactly when every column classifies with the datetime collapse off. It maps each known column to its vtype, skips None results, and returns every column rewritten. |
| Classify.TypeOfVarRejectsCategorical | reportgen/analysis.py:166-168 | With the datetime collapse off, any categorical column that is not parsed as timestamps makes `type_of_var` raise. |
| Classify.TypeOfVarRejectsZoned | reportgen/analysis.py:155-168 | An object or categorical column of timestamp strings with one shared UTC offset makes `type_of_var` raise. |
| NumericBranch.Trunc | reportgen/analysis.py:143 | `astype(np.int64)` truncates toward zero. |
| NumericBranch.TruncCellsKeepCount | reportgen/analysis.py:143-144 | Truncation keeps the non-missing count. |
| NumericBranch.CoerceIntegral | reportgen/analysis.py:143-144 | The rewrite keeps the dtype, the length and the missing cells. A column that fails the sum test is left untouched. |
| NumericBranch.TruncSumGap | reportgen/analysis.py:143 | For non-negative values, the truncated sum is at most the sum, with equality exactly when every value is whole. |
| NumericBranch.IntegralCheckOnNonNegative | reportgen/analysis.py:143 | Without negative values, the sum test means "every value is whole". |
| NumericBranch.MixedSignsTruncate | reportgen/analysis.py:143-144 | `[1.5, -0.5]` passes the sum test and is rewritten to `[1, 0]`. |
| NumericBranch.TruncKeepsIntegral | reportgen/analysis.py:144 | Truncating whole numbers changes nothing. |
| NumericBranch.CoerceIntegralFixed | reportgen/analysis.py:143-144 | The corrected rewrite never changes a value and keeps the count. |
| NumericBranch.SqrtComparison | reportgen/analysis.py:145 | For naturals, `d < sqrt(n)` holds exactly when `d*d < n`. |
| NumericBranch.SqrtBoundGivesMeanCount | reportgen/analysis.py:145 | `d >= 1` and `d*d < n` imply `2*d <= n`, so the mean count test always passes. |
| NumericBranch.ClassifyNumeric | reportgen/analysis.py:137-150 | A numeric column becomes a category exactly when detection is on and `d*d < n`. It then gets distinct, non-empty, unordered categories holding exactly its values, and its missing cells are stored as NaN. Otherwise it is a `number` with no categories. |
| NumericBranch.ClassifyNumericFixed | reportgen/analysis.py:137-150 | With the corrected rewrite, the category test reads the original values. Every value comes back in place, so `dropna()` is unchanged. With NaN as the only missing marker, the cells come back unchanged. |
| TextBranch.EqualLengthsHaveLowSpread | reportgen/analysis.py:155 | Two or more equal lengths always pass the `std() < 0.1` guard. |
| TextBranch.Lengths | reportgen/analysis.py:153-154 | There are never more lengths than cells. |
| TextBranch.LengthsOne | reportgen/analysis.py:153-154 | A cell gives the length of its `'%s'` rendering, or nothing when that rendering is "nan". |
| TextBranch.LengthsConcat | reportgen/analysis.py:153-154 | The lengths of a concatenation are the two parts' lengths in order, so each cell contributes in place. |
| TextBranch.ShownPositions | reportgen/analysis.py:153-154 | The positions whose rendering is not "nan". |
| TextBranch.LengthsCount | reportgen/analysis.py:153-154 | There is exactly one length per cell not rendered "nan". |
| TextBranch.ParseDatetime | reportgen/analysis.py:156-159 | When every value parses, the column becomes timestamps cell by cell, and every missing cell becomes `NaT`. Its storage kind is the one `ParsedDtype` gives. Otherwise the exception is swallowed and the column is unchanged. |
| TextBranch.ParsedDtype | reportgen/analysis.py:157 | The parsed storage is zone-less exactly when no value carries a zone. It is zone-aware at offset `z` only when every value carries `z`, and object only when two values carry different zones. |
| TextBranch.ParsedAreStamps | reportgen/analysis.py:157 | A parsed column holds only timestamps and keeps its count. |
| TextBranch.CollapseCategory | reportgen/analysis.py:163-169 | With the datetime collapse off, a categorical or zone-aware column raises `TypeError`, and no other column does. A non-categorical column becomes categorical exactly when `d*d < n`, unless it holds zone-less timestamps while the collapse is off. |
| TextBranch.StripPercent | reportgen/analysis.py:173 | `strip('%')` removes exactly the leading and trailing '%' characters. |
| TextBranch.ConvertCells | reportgen/analysis.py:173 | The conversion succeeds exactly when every string parses once stripped. Each cell then becomes its number over 100, or NaN if it was not a string. |
| TextBranch.ConvertPercent | reportgen/analysis.py:172-173 | Only object columns are touched. The accessor error is raised exactly when the present values are all numbers or all timestamps. The column changes exactly when the accessor accepts it, every string holds a '%', and every string parses. Each cell then becomes its number over 100, or NaN. |
| TextBranch.StrAccessorTakesStrings | reportgen/analysis.py:172 | A column with a string cell always passes the accessor's check. |
| TextBranch.AccessorExamples | reportgen/analysis.py:172-173 | `[1.5, Timestamp]` is mixed, so it is accepted and becomes `[NaN, NaN]`. `[1.5, None]` is all numbers and raises. |
| TextBranch.CommonChars | reportgen/analysis.py:188-191 | A character is kept exactly when it is in the first value and in every non-empty string cell. |
| TextBranch.Resolve | reportgen/analysis.py:175-201 | Priority is category, then datetime, then structured text, then number, then text, each stated as an iff. It raises exactly for a zone-aware column (`TypeError`, line 180) or an empty column under the structured-text test (`iloc[0]`). |
| TextBranch.ClassifyText | reportgen/analysis.py:151-202 | The type is `category` exactly when the column ends up categorical, and the categories are the column's. Fresh categories are non-empty. |
| TextBranch.TryDatetimeKind | reportgen/analysis.py:155-159 | Line 159 leaves a categorical column categorical exactly when it does not parse. The result is zone-aware exactly when the values parse to one shared offset, or the column was zone-aware and does not parse. An object result means the column was object or its values carry different zones. |
| TextBranch.DtypeCheckIff | reportgen/analysis.py:157-180 | The string branch raises `TypeError` exactly in two cases. One is a categorical column that did not parse, with the collapse off. The other is a column that parses to one shared offset and is not collapsed, because the collapse is off or `d*d >= n`. |
| TextBranch.FromParsedDtypeCheck | reportgen/analysis.py:163-180 | After line 159, lines 163-201 raise `TypeError` exactly on a categorical column with the collapse off, or on a zone-aware column that is not collapsed. |
| TextBranch.FromParsedCategory | reportgen/analysis.py:163-178 | After line 159, a non-categorical column is a `category` exactly when `d*d < n` and either the collapse is on or its storage is not a timestamp kind. It is then the column cast to categories. |
| TextBranch.CollapseKeepsCategorical | reportgen/analysis.py:163-178 | With the collapse on, a categorical column that does not parse never raises. |
| TextBranch.MixedZones | reportgen/analysis.py:157-173 | Timestamp strings with different zones parse to an object column. It is a `category` exactly when `d*d < n`; otherwise the `.str` accessor at line 172 raises. |
| TextBranch.MissingLengths | reportgen/analysis.py:153-154 | A `None` counts 4, a `NaT` counts 3, and a NaN is skipped. |
| TextBranch.NoneColumnRaises | reportgen/analysis.py:153-185 | Under the structured-text test, a column of two `None` cells has lengths 4 and 4 and raises at `iloc[0]`. |
| TextBranch.NoneBlocksTimestamps | reportgen/analysis.py:153-201 | In `["2017-01-01 00:00", None, "2017-01-02 00:00"]` the `None` counts 4. The guard fails, nothing is parsed, and the column is `text`, unchanged. |
| TextBranch.CollapsedNoneSkipped | reportgen/analysis.py:153-169 | In the object column `["2017-01-01 00:00", None, "2017-01-01 00:00"]` the `None` counts 4. Once cast to categories it is NaN, so a later pass measures 16 and 16 and the column passes the line-155 guard. |
| TextBranch.SameLengthsPassGuard | reportgen/analysis.py:155 | A string twice, with a NaN between and lengths 16 and 16, passes the timestamp guard. |
| TextBranch.ZonedColumnRaises | reportgen/analysis.py:153-180 | `["2017-01-01T00:00Z", "2017-01-02T00:00Z"]` (lengths 17 and 17) parses to UTC timestamps and raises `TypeError` both with the collapse off (line 168) and with it on (line 180). |
| TextBranch.ObjectCategoryIff | reportgen/analysis.py:163-178 | An object column is a category exactly when the distinct-count test collapses it, and its categories are then exactly its values after line 159. A column parsed to zone-less or zone-aware timestamps is exempt when the datetime collapse is off. |
| TextBranch.ParsedTimestampsAreDatetime | reportgen/analysis.py:155-180 | With the datetime collapse off, timestamp strings that parse zone-less are reported as `datetime`, and ones that parse to a shared offset raise `TypeError`. |
| TextBranch.PercentColumn | reportgen/analysis.py:172-199 | A string column of parseable percent strings becomes numeric. It is a `number` unless all its original lengths are equal, in which case it is `text`. |
| TextBranch.StripExamples | reportgen/analysis.py:173 | `"5%"` strips to `"5"` and `"12%"` to `"12"`. |
| TextBranch.PercentColumnExample | reportgen/analysis.py:153-199 | `["5%", "12%"]` has lengths 2 and 3. When `float()` reads its numbers, it becomes numeric and is reported as a `number`. |
| TextBranch.ConvertedAreNumbers | reportgen/analysis.py:173 | Converted cells hold only numbers, and at least one when a string was converted. |
| TextBranch.StructuredTextExamples | reportgen/analysis.py:183-195 | `a-1, b-2` share `-` and are `text_st`. |
| TextBranch.UnstructuredTextExample | reportgen/analysis.py:183-195 | `ab, cd` share nothing and are `text`. |
| Values.Present | reportgen/analysis.py:137 | `dropna()` keeps exactly the present values, and never more values than cells. |
| Values.PresentConcat | reportgen/analysis.py:137 | `dropna()` of a concatenation is the concatenation of the two `dropna()` results, so values keep their order. |
| Values.PresentCount | reportgen/analysis.py:137 | `count()` equals the number of positions holding a value. |
| Values.Dedup | reportgen/analysis.py:145 | `unique()` keeps each value once, and no other values. |
| Values.DistinctCountBounds | reportgen/analysis.py:145 | The distinct count is at most the count, and positive when the count is. |
| Values.ToCategory | reportgen/analysis.py:146-169 | `astype('category')` keeps every value in place and stores every missing cell as NaN, so `dropna()` is unchanged. A fresh category list is unordered, duplicate-free and holds exactly the column's values. A categorical column is unchanged. |
| Values.MissingAsNaN | reportgen/analysis.py:146-169 | Categorical storage keeps each value at its position and turns each missing marker into NaN. |
| Values.MissingAsNaNPresent | reportgen/analysis.py:146-169 | That storage keeps `dropna()`, and so the count and the distinct values. |
| Values.MissingAsNaNKeeps | reportgen/analysis.py:146-169 | Cells whose missing entries are all NaN are stored unchanged. |

## Left out

- `_freedman_diaconis_bins` and `distributions` (lines 42-94): floating-point
  histograms and kernel density estimates.
- `describe` (lines 315-324), `plot` and `AnalysisReport` (lines 327-495):
  rendering, report building and file I/O.
- The module-level font setup (lines 32-38).
- The Series-only call of `dtype_detection` (lines 123-125) and the
  non-DataFrame `raise('')` (lines 129-131).
- The copy-versus-view difference of `type_of_var(inplace=False)` (line 236):
  the model always returns the rewritten table.
- Library behaviour is a parameter (`Env`), not modelled: `'%s'` rendering of
  numbers and timestamps, `pd.to_datetime` on one value together with the UTC
  offset it reads (`zoneOf`), and `float()` on a string. A column converts to
  timestamps when every present value parses. Its storage kind then follows
  from the offsets alone. The timestamps are instants; the offset is not kept
  per value.
- The exact float `std()` is replaced by exact rational arithmetic on the
  integer lengths, and the percent division `x / 100` uses exact reals.
- Values.ToCategory: the categories are in first-appearance order. pandas sorts
  them, and the model does not, because it has no ordering on mixed values.
- Values.Column: no validity predicate ties the storage kind to the cells.
  The contracts also cover states pandas never holds. Examples are a
  categorical column given with `None` or `NaT` cells, or with categories
  that do not match its cells, and a numeric column holding a string. On such
  a categorical column, line 153 maps only the categories, so pandas would
  skip a missing cell. `TextBranch.Lengths` renders it as `None` or `NaT`
  instead. Every categorical column the model builds stores NaN only.
- NumericBranch.ClassifyNumericFixed: "the cells come back unchanged" holds
  only when NaN is the column's only missing marker (`NaNMissing`). A `None`
  or `NaT` in a numeric column, which pandas never stores, becomes NaN when
  the column is cast to categories. The values are always kept in place.
- Classify.DtypeDetectionFixed: the same restriction, for the same reason.
- NumericBranch.Trunc: models truncation on unbounded integers, not numpy's
  64-bit overflow for huge floats.
- Names.SplitName: only ASCII digits count as `\d`, not every Unicode decimal
  digit. Names are strings, so non-string labels that `'%s'` would render are
  not modelled.
- `int()` of a digit run is unbounded, with no numpy integer width in the
  `np.diff` sum.
- NumericBranch.CoerceIntegral: the sums of line 143 are exact real sums, not
  float64 sums. In float64, `[1e17, 0.5]` passes the test because 0.5 is
  absorbed, and it is rewritten. The model rejects it. `[0.1, 0.2, -0.3]` has
  float sum about 5.6e-17, so the source leaves it alone, but the model's
  exact sum 0 passes. Modelling IEEE rounding is out of scope.
- NumericBranch.TruncSumGap: proved over exact reals; with float64 addition,
  equality can also hold when a small fraction is absorbed.
- NumericBranch.IntegralCheckOnNonNegative: proved over exact reals, for the
  same reason.
- Classify.DtypeDetection: a numeric column holding an infinity raises
  `ValueError` in `astype(np.int64)` at line 143. The model's numbers are
  finite reals, so its numeric branch never raises.
- Classify.ClassifyFrom: when a column raises, the source has already
  rewritten the earlier columns of the caller's frame in place (lines 144, 146,
  157, 166/169, 173). The model returns only the error and drops those partial
  rewrites. The `print('unknown dtype!')` of line 207 is output only and is not
  modelled.

## Findings

| source | as written | input that shows it | evidently intended | confidence | as-written member | corrected member |
|---|---|---|---|---|---|---|
| reportgen/analysis.py:289-293 | a run of at least 2 that fails the prefix or span test leaves `i` unchanged, so the `while` loop repeats forever | two numeric columns `a1`, `b2`, or `Q1_a, Q1_b, Q1_c` | advance `i` by one, as for a short run | high (not executed) | Scan.StallExample | Scan.FixedGroups |
| reportgen/analysis.py:143-144 | whole numbers are detected by comparing the truncated sum with the sum. Fractional parts of opposite sign cancel. In float64 a small fraction is also absorbed by a large value (`[1e17, 0.5]`), which the exact-real model does not exhibit | `[1.5, -0.5]`: sums 1 and 1, rewritten to `[1, 0]` | rewrite only when every value is whole, so no value changes | high (not executed) | NumericBranch.MixedSignsTruncate | NumericBranch.CoerceIntegralFixed |

=== FILE: classify.dfy ===
/**
 * `dtype_detection` as a whole (dispatch on the storage kind) and
 * `type_of_var`, which runs it over every column of a table.
 */
module Classify {
  import opened Wrappers
  import opened Values
  import NumericBranch
  import TextBranch

  /**
   * Lines 133-210 on one column: the classification, or None for a storage
   * kind the classifier does not know, together with the rewritten column.
   */
  function DtypeDetection(env: Env, cfg: Config, name: string, col: Column)
    : (r: Result<(Option<Detected>, Column), Error>)
    ensures r.Ok? && r.value.0.Some? ==> r.value.0.value.name == name && r.value.0.value.vtype != GroupNumber
    ensures r.Ok? ==> (r.value.0.None? <==> col.dtype.Unsupported?)
    ensures col.dtype.Datetime64? || col.dtype.DatetimeTz? ==> r == Ok((Some(Detected(name, Datetime, false, [])), col))
    ensures r.Ok? ==> |r.value.1.cells| == |col.cells|
    ensures r.Err? ==> col.dtype.Object? || col.dtype.Categorical?
    ensures r.Err? && col.dtype.Categorical? ==> !cfg.datetimeToCategory || TextBranch.ParsesAsDatetime(env, col)
    ensures r == Err(DtypeCheck(name)) <==>
      || (col.dtype.Categorical? && !cfg.datetimeToCategory && !TextBranch.ParsesAsDatetime(env, col))
      || ((col.dtype.Object? || col.dtype.Categorical?) && TextBranch.ZoneAware(env, col) &&
          !(cfg.datetimeToCategory && TextBranch.FewDistinct(TextBranch.TryDatetime(env, col).cells, Count(col.cells))))
    ensures r.Ok? && r.value.0.Some? ==> var d := r.value.0.value;
      (d.vtype == Category ==> |d.categories| >= 1 || col.dtype.Categorical?) &&
      (d.vtype != Category ==> d.categories == [] && !d.ordered)
  {
    match col.dtype
    case Numeric =>
      var (d, c) := NumericBranch.ClassifyNumeric(cfg, name, col);
      Ok((Some(d), c))
    case Object =>
      TextBranch.DtypeCheckIff(env, cfg, name, col);
      var dc :- TextBranch.ClassifyText(env, cfg, name, col);
      Ok((Some(dc.0), dc.1))
    case Categorical(_, _) =>
      TextBranch.DtypeCheckIff(env, cfg, name, col);
      TextBranch.CollapseKeepsCategorical(env, cfg, name, col);
      var dc :- TextBranch.ClassifyText(env, cfg, name, col);
      Ok((Some(dc.0), dc.1))
    case Datetime64 => Ok((Some(Detected(name, Datetime, false, [])), col))
    case DatetimeTz(_) => Ok((Some(Detected(name, Datetime, false, [])), col))
    case Unsupported => Ok((None, col))
  }

  /** `dtype_detection` with the corrected integer rewrite of the numeric branch. */
  function DtypeDetectionFixed(env: Env, cfg: Config, name: string, col: Column)
    : (r: Result<(Option<Detected>, Column), Error>)
    ensures r.Ok? && r.value.0.Some? ==> r.value.0.value.name == name && r.value.0.value.vtype != GroupNumber
    ensures col.dtype.Numeric? && NumericBranch.NumericCells(col.cells) ==>
      r.Ok? && |r.value.1.cells| == |col.cells| && Present(r.value.1.cells) == Present(col.cells) &&
      forall j :: 0 <= j < |col.cells| && col.cells[j].Val? ==> r.value.1.cells[j] == col.cells[j]
    ensures col.dtype.Numeric? && NumericBranch.NumericCells(col.cells) && NaNMissing(col.cells) ==>
      r.Ok? && r.value.1.cells == col.cells
    ensures !col.dtype.Numeric? ==> r == DtypeDetection(env, cfg, name, col)
  {
    if col.dtype.Numeric? then
      var (d, c) := NumericBranch.ClassifyNumericFixed(cfg, name, col);
      Ok((Some(d), c))
    else DtypeDetection(env, cfg, name, col)
  }

  /** A per-column classifier, as `type_of_var` and `var_detection` call it. */
  type Classifier = (string, Column) -> Result<(Option<Detected>, Column), Error>

  function Detector(env: Env, cfg: Config): Classifier {
    (name: string, col: Column) => DtypeDetection(env, cfg, name, col)
  }

  function DetectorFixed(env: Env, cfg: Config): Classifier {
    (name: string, col: Column) => DtypeDetectionFixed(env, cfg, name, col)
  }

  function Labels(table: Table): (ls: seq<string>)
    ensures |ls| == |table|
    ensures forall j :: 0 <= j < |table| ==> ls[j] == table[j].name
  {
    if |table| == 0 then [] else [table[0].name] + Labels(table[1..])
  }

  /**
   * A label that names two columns: pandas then hands back a frame for
   * `data[c]`, and reading `.dtype` from it raises.
   */
  predicate Duplicated(labels: seq<string>, x: string) {
    exists a, b :: 0 <= a < b < |labels| && labels[a] == x && labels[b] == x
  }

  lemma NoDuplicatesDistinct(labels: seq<string>)
    requires forall t :: 0 <= t < |labels| ==> !Duplicated(labels, labels[t])
    ensures Distinct(labels)
  {
    forall a, b | 0 <= a < b < |labels| ensures labels[a] != labels[b] {
      assert !Duplicated(labels, labels[a]);
    }
  }

  /** The column at position `t` is classified without raising. */
  predicate ClassifiesAt(classify: Classifier, table: Table, t: nat)
    requires t < |table|
  {
    !Duplicated(Labels(table), table[t].name) && classify(table[t].name, table[t].column).Ok?
  }

  /**
   * Classifies the columns from position `j` on, in order, threading the
   * rewritten columns into the returned table; the first column that raises
   * ends the pass.
   */
  function ClassifyFrom(classify: Classifier, table: Table, j: nat)
    : (r: Result<(seq<Option<Detected>>, Table), Error>)
    requires j <= |table|
    ensures r.Ok? <==> forall t :: j <= t < |table| ==> ClassifiesAt(classify, table, t)
    ensures r.Ok? ==> |r.value.0| == |table| - j && |r.value.1| == |table| - j
    ensures r.Ok? ==> forall t :: 0 <= t < |table| - j ==>
      r.value.1[t].name == table[j + t].name &&
      classify(table[j + t].name, table[j + t].column) == Ok((r.value.0[t], r.value.1[t].column))
    decreases |table| - j
  {
    if j == |table| then Ok(([], []))
    else if Duplicated(Labels(table), table[j].name) then
      assert !ClassifiesAt(classify, table, j);
      Err(DuplicateLabel(table[j].name))
    else
      var out := classify(table[j].name, table[j].column);
      if out.Err? then
        assert !ClassifiesAt(classify, table, j);
        Err(out.error)
      else
        var rest :- ClassifyFrom(classify, table, j + 1);
        assert ClassifiesAt(classify, table, j);
        var ds := [out.value.0] + rest.0;
        var fs := [Field(table[j].name, out.value.1)] + rest.1;
        assert forall t :: 0 <= t < |table| - j ==>
          fs[t].name == table[j + t].name && classify(table[j + t].name, table[j + t].column) == Ok((ds[t], fs[t].column))
        by {
          forall t | 0 < t < |table| - j
            ensures fs[t].name == table[j + t].name && classify(table[j + t].name, table[j + t].column) == Ok((ds[t], fs[t].column))
          {
            assert fs[t] == rest.1[t - 1] && ds[t] == rest.0[t - 1] && j + t == (j + 1) + (t - 1);
          }
        }
        Ok((ds, fs))
  }

  /** A pass that returns leaves the labels distinct. */
  lemma ClassifiedLabelsDistinct(classify: Classifier, table: Table)
    requires ClassifyFrom(classify, table, 0).Ok?
    ensures Distinct(Labels(table))
  {
    forall t | 0 <= t < |Labels(table)| ensures !Duplicated(Labels(table), Labels(table)[t]) {
      assert ClassifiesAt(classify, table, t);
    }
    NoDuplicatesDistinct(Labels(table));
  }

  /** The labels of a table's first `k` columns, and what distinct labels give of them. */
  lemma LabelsInit(fields: Table, k: nat)
    requires k < |fields|
    ensures Labels(fields[..k]) == Labels(fields)[..k]
    ensures forall x :: x in Labels(fields[..k]) ==> x in Labels(fields)
    ensures Distinct(Labels(fields)) ==> Distinct(Labels(fields[..k])) && fields[k].name !in Labels(fields[..k])
  {
    assert forall t :: 0 <= t < k ==> Labels(fields[..k])[t] == Labels(fields)[t];
    assert Labels(fields)[k] == fields[k].name;
  }

  /** `m` maps the name of every classified column to its type, and knows no other column. */
  predicate Records(fields: Table, ds: seq<Option<Detected>>, m: map<string, VType>)
    requires |fields| == |ds|
  {
    && (forall x :: x in m ==> x in Labels(fields))
    && forall t :: 0 <= t < |ds| ==>
      (fields[t].name in m <==> ds[t].Some?) &&
      (ds[t].Some? ==> m[fields[t].name] == ds[t].value.vtype)
  }

  /** What the map holds after `type_of_var` has seen one more column. */
  function Record(m: map<string, VType>, f: Field, d: Option<Detected>): (m': map<string, VType>)
    ensures d.Some? ==> m' == m[f.name := d.value.vtype]
    ensures d.None? ==> m' == m
  {
    match d
    case Some(v) => m[f.name := v.vtype]
    case None => m
  }

  /** A column with a new label: recording it keeps what the map says of column `t`. */
  lemma RecordsKeep(fields: Table, ds: seq<Option<Detected>>, m: map<string, VType>, k: nat, t: nat)
    requires |fields| == |ds| == k + 1 && t <= k
    requires fields[k].name !in Labels(fields[..k])
    requires Records(fields[..k], ds[..k], m)
    ensures var m' := Record(m, fields[k], ds[k]);
      (fields[t].name in m' <==> ds[t].Some?) && (ds[t].Some? ==> m'[fields[t].name] == ds[t].value.vtype)
  {
    if t < k {
      assert fields[..k][t] == fields[t] && ds[..k][t] == ds[t];
      assert Labels(fields[..k])[t] == fields[t].name;
    }
  }

  /** A column with a new label: recording it extends what the map records. */
  lemma RecordsExtend(fields: Table, ds: seq<Option<Detected>>, m: map<string, VType>, k: nat)
    requires |fields| == |ds| == k + 1
    requires fields[k].name !in Labels(fields[..k])
    requires Records(fields[..k], ds[..k], m)
    ensures Records(fields, ds, Record(m, fields[k], ds[k]))
  {
    var m' := Record(m, fields[k], ds[k]);
    forall x | x in m' ensures x in Labels(fields) {
      LabelsInit(fields, k);
      if x == fields[k].name {
        assert Labels(fields)[k] == x;
      }
    }
    forall t | 0 <= t < k + 1
      ensures (fields[t].name in m' <==> ds[t].Some?) && (ds[t].Some? ==> m'[fields[t].name] == ds[t].value.vtype)
    {
      RecordsKeep(fields, ds, m, k, t);
    }
  }

  /** The name-to-type map `type_of_var` fills, later columns overwriting earlier ones. */
  function TypesOf(fields: Table, ds: seq<Option<Detected>>): (m: map<string, VType>)
    requires |fields| == |ds|
    ensures forall x :: x in m ==> x in Labels(fields)
    ensures Distinct(Labels(fields)) ==> Records(fields, ds, m)
  {
    if |ds| == 0 then map[]
    else
      var k := |ds| - 1;
      var m := TypesOf(fields[..k], ds[..k]);
      LabelsInit(fields, k);
      var m' := Record(m, fields[k], ds[k]);
      assert Distinct(Labels(fields)) ==> Records(fields, ds, m') by {
        if Distinct(Labels(fields)) {
          assert Distinct(Labels(fields[..k])) && fields[k].name !in Labels(fields[..k]);
          RecordsExtend(fields, ds, m, k);
        }
      }
      m'
  }

  /**
   * Lines 234-246: the variable type of every column the classifier knows,
   * keyed by column name, with `datetime_to_category` off; the table comes
   * back with every column rewritten by its own classification.
   */
  function TypeOfVar(env: Env, table: Table): (r: Result<(map<string, VType>, Table), Error>)
    ensures r.Ok? <==> forall t :: 0 <= t < |table| ==> ClassifiesAt(Detector(env, TypeConfig), table, t)
    ensures r.Ok? ==> Labels(r.value.1) == Labels(table)
    ensures r.Ok? ==> forall t :: 0 <= t < |table| ==>
      var d := DtypeDetection(env, TypeConfig, table[t].name, table[t].column);
      && d.Ok?
      && r.value.1[t].column == d.value.1
      && (table[t].name in r.value.0 <==> d.value.0.Some?)
      && (d.value.0.Some? ==> r.value.0[table[t].name] == d.value.0.value.vtype)
  {
    var classify := Detector(env, TypeConfig);
    var res :- ClassifyFrom(classify, table, 0);
    ClassifiedLabelsDistinct(classify, table);
    assert Labels(res.1) == Labels(table);
    Ok((TypesOf(res.1, res.0), res.1))
  }

  /**
   * With the datetime collapse off, line 168 raises on a categorical column
   * that line 157 did not turn into timestamps, so `type_of_var` raises on
   * any table holding one.
   */
  lemma TypeOfVarRejectsCategorical(env: Env, table: Table, t: nat)
    requires t < |table| && table[t].column.dtype.Categorical?
    requires !TextBranch.ParsesAsDatetime(env, table[t].column)
    ensures TypeOfVar(env, table).Err?
  {
    assert !ClassifiesAt(Detector(env, TypeConfig), table, t);
  }

  /**
   * With the datetime collapse off, line 168 also raises on a column that
   * line 157 turns into zone-aware timestamps, so `type_of_var` raises on
   * any table holding one.
   */
  lemma TypeOfVarRejectsZoned(env: Env, table: Table, t: nat)
    requires t < |table| && (table[t].column.dtype.Object? || table[t].column.dtype.Categorical?)
    requires TextBranch.ZoneAware(env, table[t].column)
    ensures TypeOfVar(env, table).Err?
  {
    assert !ClassifiesAt(Detector(env, TypeConfig), table, t);
  }
}

=== FILE: detect.dfy ===
/**
 * `var_detection` (lines 248-313): classify every column, drop the ones the
 * classifier does not know, and, with `combine` on, merge runs of numbered
 * numeric columns into `group_number` variables.
 */
module Detect {
  import opened Wrappers
  import opened Values
  import opened Scan
  import opened Emission
  import opened Classify

  /** The first result of `var_detection`: plain records, or records with `vlist`. */
  datatype Detection = PerColumn(vars: seq<Detected>) | Combined(variables: seq<Variable>)

  /** How a call fails: an exception escapes, or the grouping loop never ends. */
  datatype Failure = Raised(error: Error) | Diverges(at: nat)

  /** Lines 263-266: the results that are not None, in column order. */
  function Somes(ds: seq<Option<Detected>>): (r: seq<Detected>)
    ensures |r| <= |ds|
    ensures forall x :: x in r <==> Some(x) in ds
  {
    if |ds| == 0 then []
    else
      assert forall o :: o in ds <==> o == ds[0] || o in ds[1..];
      (if ds[0].Some? then [ds[0].value] else []) + Somes(ds[1..])
  }

  /** Keeping the non-None results works result by result: on a concatenation it concatenates. */
  lemma {:induction false} SomesConcat(a: seq<Option<Detected>>, b: seq<Option<Detected>>)
    ensures Somes(a + b) == Somes(a) + Somes(b)
  {
    if |a| == 0 {
      assert a + b == b;
    } else {
      assert (a + b)[1..] == a[1..] + b;
      SomesConcat(a[1..], b);
    }
  }

  /** The positions of the non-None results. */
  function SomePositions(ds: seq<Option<Detected>>): (ps: set<nat>)
    ensures forall j: nat :: j in ps <==> j < |ds| && ds[j].Some?
  {
    if |ds| == 0 then {}
    else
      var k := |ds| - 1;
      assert forall j :: 0 <= j < k ==> ds[..k][j] == ds[j];
      SomePositions(ds[..k]) + if ds[k].Some? then {k} else {}
  }

  /** One record is kept per non-None result. */
  lemma {:induction false} SomesCount(ds: seq<Option<Detected>>)
    ensures |Somes(ds)| == |SomePositions(ds)|
  {
    if |ds| > 0 {
      var k := |ds| - 1;
      var init := ds[..k];
      SomesCount(init);
      assert ds == init + [ds[k]];
      SomesConcat(init, [ds[k]]);
      if ds[k].Some? {
        assert k !in SomePositions(init);
      }
    }
  }

  function NamesOf(vs: seq<Detected>): seq<string> {
    NameList(vs, 0, |vs|)
  }

  /** Results that carry their column's label have distinct names when the labels are distinct. */
  lemma {:induction false} SomesDistinct(ds: seq<Option<Detected>>, labels: seq<string>)
    requires |ds| == |labels| && Distinct(labels)
    requires forall t :: 0 <= t < |ds| && ds[t].Some? ==> ds[t].value.name == labels[t]
    ensures Distinct(NamesOf(Somes(ds)))
    ensures forall x :: x in NamesOf(Somes(ds)) ==> x in labels
    decreases |ds|
  {
    if |ds| > 0 {
      var rest := Somes(ds[1..]);
      SomesDistinct(ds[1..], labels[1..]);
      assert labels[0] !in labels[1..] by {
        forall t | 0 <= t < |labels| - 1 ensures labels[1..][t] != labels[0] {
          assert labels[1..][t] == labels[t + 1];
        }
      }
      var head := if ds[0].Some? then [ds[0].value] else [];
      assert Somes(ds) == head + rest;
      var ns := NamesOf(Somes(ds));
      assert ns == NamesOf(head) + NamesOf(rest);
      forall x | x in ns ensures x in labels {
        if x !in NamesOf(head) {
          assert x in NamesOf(rest);
        }
      }
    }
  }

  /** The classification pass of lines 263-266, with the table as rewritten by it. */
  function Detections(classify: Classifier, table: Table): (r: Result<(seq<Detected>, Table), Error>)
    ensures r.Ok? <==> ClassifyFrom(classify, table, 0).Ok?
    ensures r.Ok? ==> Labels(r.value.1) == Labels(table)
    ensures r.Ok? ==> r.value.0 == Somes(ClassifyFrom(classify, table, 0).value.0)
  {
    var res :- ClassifyFrom(classify, table, 0);
    Ok((Somes(res.0), res.1))
  }

  /** Every record the classifier returns is named after the column it was given. */
  ghost predicate KeepsNames(classify: Classifier) {
    forall name, col :: classify(name, col).Ok? && classify(name, col).value.0.Some? ==>
      classify(name, col).value.0.value.name == name
  }

  /** Both versions of `dtype_detection` name their result after the column (lines 150, 202 and 205). */
  lemma DetectorsKeepNames(env: Env, cfg: Config)
    ensures KeepsNames(Detector(env, cfg)) && KeepsNames(DetectorFixed(env, cfg))
  {
    forall name, col | Detector(env, cfg)(name, col).Ok? && Detector(env, cfg)(name, col).value.0.Some?
      ensures Detector(env, cfg)(name, col).value.0.value.name == name
    {
      assert Detector(env, cfg)(name, col) == DtypeDetection(env, cfg, name, col);
    }
    forall name, col | DetectorFixed(env, cfg)(name, col).Ok? && DetectorFixed(env, cfg)(name, col).value.0.Some?
      ensures DetectorFixed(env, cfg)(name, col).value.0.value.name == name
    {
      assert DetectorFixed(env, cfg)(name, col) == DtypeDetectionFixed(env, cfg, name, col);
    }
  }

  /**
   * With a classifier that names records after their columns, a pass that
   * returns had distinct labels, so the records' names are distinct.
   */
  lemma DetectedNamesDistinct(classify: Classifier, table: Table)
    requires KeepsNames(classify)
    requires ClassifyFrom(classify, table, 0).Ok?
    ensures Distinct(NamesOf(Somes(ClassifyFrom(classify, table, 0).value.0)))
  {
    var res := ClassifyFrom(classify, table, 0).value;
    ClassifiedLabelsDistinct(classify, table);
    forall t | 0 <= t < |res.0| && res.0[t].Some? ensures res.0[t].value.name == Labels(table)[t] {
      assert classify(table[t].name, table[t].column) == Ok((res.0[t], res.1[t].column));
    }
    SomesDistinct(res.0, Labels(table));
  }

  /** The corrected scan's groups, laid out: what lines 269-313 evidently intend. */
  function IntendedLayout(vars: seq<Detected>): seq<Variable> {
    var ks := Keys(vars);
    var gs := FixedGroups(ks, 0);
    WellFormedOrdered(ks, gs);
    Layout(vars, gs, 0)
  }

  /**
   * Lines 269-313 on the per-column records, whose names are distinct: the
   * scan either finishes, and then every record is emitted exactly once
   * (alone or inside its group), or it reaches a run it rejects, and then the
   * source loop never ends; the error carries where it stalls.
   */
  method Combine(vars: seq<Detected>) returns (r: Result<seq<Variable>, nat>)
    requires Distinct(NamesOf(vars))
    ensures r.Ok? ==> Flatten(r.value) == NamesOf(vars)
    ensures r.Ok? ==> r.value == IntendedLayout(vars)
    ensures r.Err? ==> var ks := Keys(vars);
      && r.error + 1 < |ks|
      && Decide(ks, r.error).Reject?
      && forall k: nat :: Loops(ks, Run(ks, Init, k))
  {
    var ks := Keys(vars);
    var outcome, steps := ScanGroups(ks);
    if outcome.Stalled? {
      return Err(outcome.at);
    }
    var gs := outcome.groups;
    WellFormedOrdered(ks, gs);
    EmitIsLayout(vars, gs);
    r := Ok(Emit(vars, gs).value);
  }

  /**
   * Lines 248-313: an exception from a column escapes; without `combine` the
   * per-column records come back as they are; with it, the result is that of
   * `Combine` on those records.
   */
  method VarDetection(env: Env, table: Table, combine: bool)
    returns (r: Result<(Detection, Table), Failure>)
    ensures var d := Detections(Detector(env, Defaults), table);
      && (d.Err? <==> r.Err? && r.error.Raised?)
      && (d.Err? ==> r.error.error == d.error)
    ensures var d := Detections(Detector(env, Defaults), table);
      d.Ok? && !combine ==> r == Ok((PerColumn(d.value.0), d.value.1))
    ensures r.Ok? && combine ==> var d := Detections(Detector(env, Defaults), table).value;
      && r.value.1 == d.1
      && r.value.0.Combined?
      && Flatten(r.value.0.variables) == NamesOf(d.0)
      && r.value.0.variables == IntendedLayout(d.0)
    ensures r.Err? && r.error.Diverges? ==> var d := Detections(Detector(env, Defaults), table).value;
      var ks := Keys(d.0);
      && combine
      && r.error.at + 1 < |ks|
      && Decide(ks, r.error.at).Reject?
      && forall k: nat :: Loops(ks, Run(ks, Init, k))
  {
    var d := Detections(Detector(env, Defaults), table);
    if d.Err? {
      return Err(Raised(d.error));
    }
    var (vars, data) := d.value;
    if !combine {
      return Ok((PerColumn(vars), data));
    }
    DetectorsKeepNames(env, Defaults);
    DetectedNamesDistinct(Detector(env, Defaults), table);
    var c := Combine(vars);
    if c.Err? {
      return Err(Diverges(c.error));
    }
    r := Ok((Combined(c.value), data));
  }

  /**
   * `var_detection` as evidently intended: the corrected integer rewrite and
   * the scan that steps past a rejected run. It fails only when a column
   * raises, and it always emits every column exactly once.
   */
  function VarDetectionFixed(env: Env, table: Table, combine: bool)
    : (r: Result<(Detection, Table), Error>)
    ensures r.Ok? <==> ClassifyFrom(DetectorFixed(env, Defaults), table, 0).Ok?
    ensures r.Ok? && combine ==> var d := Detections(DetectorFixed(env, Defaults), table).value;
      && r.value.0.Combined?
      && Flatten(r.value.0.variables) == NamesOf(d.0)
    ensures r.Ok? && !combine ==> r.value.0.PerColumn?
  {
    var d :- Detections(DetectorFixed(env, Defaults), table);
    var (vars, data) := d;
    if !combine then Ok((PerColumn(vars), data))
    else
      var ks := Keys(vars);
      var gs := FixedGroups(ks, 0);
      WellFormedOrdered(ks, gs);
      DetectorsKeepNames(env, Defaults);
      DetectedNamesDistinct(DetectorFixed(env, Defaults), table);
      EmitIsLayout(vars, gs);
      Ok((Combined(Emit(vars, gs).value), data))
  }
}

=== FILE: emit.dfy ===
/**
 * The emission pass of `var_detection` (lines 294-313): every confirmed
 * group becomes one `group_number` variable, every other column is kept with
 * `vlist` set to its own name, and a column whose name was already emitted
 * (inside a group) is skipped.
 */
module Emission {
  import opened Wrappers
  import opened Values
  import opened Scan

  /** A result of `var_detection` with `combine` on: a record plus its `vlist`. */
  datatype Variable = Variable(
    name: string, vtype: VType, vlist: seq<string>, ordered: bool, categories: seq<Value>)

  /** The names of `vars[lo..hi]`. */
  function NameList(vars: seq<Detected>, lo: nat, hi: nat): (ns: seq<string>)
    requires lo <= hi <= |vars|
    ensures |ns| == hi - lo
    ensures forall j :: 0 <= j < hi - lo ==> ns[j] == vars[lo + j].name
  {
    seq(hi - lo, j requires 0 <= j < hi - lo => vars[lo + j].name)
  }

  lemma NameListSplit(vars: seq<Detected>, a: nat, b: nat, c: nat)
    requires a <= b <= c <= |vars|
    ensures NameList(vars, a, b) + NameList(vars, b, c) == NameList(vars, a, c)
  {
  }

  /** Line 307: a column outside every group, with `vlist` its own name. */
  function Single(v: Detected): Variable {
    Variable(v.name, v.vtype, [v.name], v.ordered, v.categories)
  }

  /** Lines 297-302: the record of one group. */
  function GroupVar(vars: seq<Detected>, g: Span): (r: Variable)
    requires g.lo < g.hi <= |vars|
    ensures r.vtype == GroupNumber && r.ordered
    ensures r.name == vars[g.lo].name + "-->" + vars[g.hi - 1].name
    ensures |r.vlist| == g.hi - g.lo && forall j :: 0 <= j < g.hi - g.lo ==> r.vlist[j] == vars[g.lo + j].name
    ensures |r.categories| == |r.vlist| && forall j :: 0 <= j < |r.vlist| ==> r.categories[j] == Str(r.vlist[j])
  {
    var names := NameList(vars, g.lo, g.hi);
    Variable(vars[g.lo].name + "-->" + vars[g.hi - 1].name, GroupNumber, names, true,
             seq(|names|, j requires 0 <= j < |names| => Str(names[j])))
  }

  /** Every group is a non-empty range of `var_list`. */
  predicate Proper(n: nat, gs: seq<Span>) {
    forall k :: 0 <= k < |gs| ==> gs[k].lo < gs[k].hi <= n
  }

  /** `i in var_group_total`: some group covers index `i`. */
  predicate Covered(gs: seq<Span>, i: nat) {
    exists k :: 0 <= k < |gs| && gs[k].lo <= i < gs[k].hi
  }

  /** `g` occurs in `gs`, and no later entry starts where it does. */
  predicate LastWith(gs: seq<Span>, g: Span) {
    exists k :: 0 <= k < |gs| && gs[k] == g && forall l :: k < l < |gs| ==> gs[l].lo != g.lo
  }

  /**
   * `var_group_new[i]`: the dictionary is keyed by each group's first index,
   * so a later group with the same start replaces an earlier one.
   */
  function GroupAt(gs: seq<Span>, i: nat): (r: Option<Span>)
    ensures r.None? <==> forall k :: 0 <= k < |gs| ==> gs[k].lo != i
    ensures r.Some? ==> r.value.lo == i && LastWith(gs, r.value)
  {
    if |gs| == 0 then None
    else if gs[|gs| - 1].lo == i then Some(gs[|gs| - 1])
    else GroupAt(gs[..|gs| - 1], i)
  }

  /**
   * Lines 305-313 from index `i` on, with `have` the names emitted so far
   * (`var_list_have`). A covered column whose name is new but which starts
   * no group is a `KeyError`.
   */
  function EmitFrom(vars: seq<Detected>, gs: seq<Span>, i: nat, have: seq<string>)
    : (r: Result<seq<Variable>, Error>)
    requires i <= |vars| && Proper(|vars|, gs)
    ensures r.Ok? ==> |r.value| <= |vars| - i
    ensures r.Err? ==> r.error.MissingGroup? && i <= r.error.index < |vars|
    ensures r.Err? ==> Covered(gs, r.error.index) && GroupAt(gs, r.error.index).None?
    decreases |vars| - i
  {
    if i == |vars| then Ok([])
    else if !Covered(gs, i) then
      var rest :- EmitFrom(vars, gs, i + 1, have + [vars[i].name]);
      Ok([Single(vars[i])] + rest)
    else if vars[i].name !in have then
      match GroupAt(gs, i)
      case None => Err(MissingGroup(i))
      case Some(g) =>
        var w := GroupVar(vars, g);
        var rest :- EmitFrom(vars, gs, i + 1, have + w.vlist);
        Ok([w] + rest)
    else EmitFrom(vars, gs, i + 1, have)
  }

  function Emit(vars: seq<Detected>, gs: seq<Span>): Result<seq<Variable>, Error>
    requires Proper(|vars|, gs)
  {
    EmitFrom(vars, gs, 0, [])
  }

  /** Groups in ascending order and pairwise disjoint. */
  predicate Ordered(n: nat, gs: seq<Span>) {
    && Proper(n, gs)
    && forall k, l :: 0 <= k < l < |gs| ==> gs[k].hi <= gs[l].lo
  }

  /** The scan's groups are ordered. */
  lemma WellFormedOrdered(ks: seq<Key>, gs: seq<Span>)
    requires WellFormed(ks, gs)
    ensures Ordered(|ks|, gs)
  {
    WellFormedGroups(ks, gs);
  }

  /**
   * The intended result, defined independently of the dictionary and the
   * `have` list: walking the columns, a group start emits the group and jumps
   * past it, any other column is emitted on its own.
   */
  function Layout(vars: seq<Detected>, gs: seq<Span>, i: nat): seq<Variable>
    requires i <= |vars| && Ordered(|vars|, gs)
    requires forall k :: 0 <= k < |gs| ==> i <= gs[k].lo
    decreases |vars| - i
  {
    if i == |vars| then []
    else if |gs| > 0 && gs[0].lo == i then
      [GroupVar(vars, gs[0])] + Layout(vars, gs[1..], gs[0].hi)
    else [Single(vars[i])] + Layout(vars, gs, i + 1)
  }

  function Flatten(vs: seq<Variable>): seq<string> {
    if |vs| == 0 then [] else vs[0].vlist + Flatten(vs[1..])
  }

  /**
   * The layout is a partition of the columns: its `vlist`s, read in order,
   * are exactly the column names, each once.
   */
  lemma {:induction false} LayoutPartition(vars: seq<Detected>, gs: seq<Span>, i: nat)
    requires i <= |vars| && Ordered(|vars|, gs)
    requires forall k :: 0 <= k < |gs| ==> i <= gs[k].lo
    ensures Flatten(Layout(vars, gs, i)) == NameList(vars, i, |vars|)
    decreases |vars| - i
  {
    if i == |vars| {
    } else if |gs| > 0 && gs[0].lo == i {
      var g := gs[0];
      LayoutPartition(vars, gs[1..], g.hi);
      var vs := Layout(vars, gs, i);
      assert vs[1..] == Layout(vars, gs[1..], g.hi);
      NameListSplit(vars, i, g.hi, |vars|);
    } else {
      LayoutPartition(vars, gs, i + 1);
      var vs := Layout(vars, gs, i);
      assert vs[1..] == Layout(vars, gs, i + 1);
      assert NameList(vars, i, |vars|) == [vars[i].name] + NameList(vars, i + 1, |vars|);
    }
  }

  /** In ordered groups each start index belongs to one group only. */
  lemma GroupAtOrdered(gs: seq<Span>, n: nat, m: nat)
    requires Ordered(n, gs) && m < |gs|
    ensures GroupAt(gs, gs[m].lo) == Some(gs[m])
  {
    var r := GroupAt(gs, gs[m].lo);
    var k :| 0 <= k < |gs| && gs[k] == r.value && forall l :: k < l < |gs| ==> gs[l].lo != r.value.lo;
    if k < m {
      assert gs[k].hi <= gs[m].lo;
    } else if m < k {
      assert gs[m].hi <= gs[k].lo;
    }
  }

  /** Inside a group whose names were all emitted, the loop only skips. */
  lemma {:induction false} SkipInside(vars: seq<Detected>, gs: seq<Span>, j: nat, hi: nat, have: seq<string>)
    requires j <= hi <= |vars| && Proper(|vars|, gs)
    requires forall t :: j <= t < hi ==> Covered(gs, t) && vars[t].name in have
    ensures EmitFrom(vars, gs, j, have) == EmitFrom(vars, gs, hi, have)
    decreases hi - j
  {
    if j < hi {
      SkipInside(vars, gs, j + 1, hi, have);
    }
  }

  /** At a group start the pass emits the group and resumes after it. */
  lemma GroupStep(vars: seq<Detected>, all: seq<Span>, m: nat)
    requires Ordered(|vars|, all) && m < |all|
    requires Distinct(NameList(vars, 0, |vars|))
    ensures var g := all[m];
      var rest := EmitFrom(vars, all, g.hi, NameList(vars, 0, g.hi));
      rest.Ok? ==> EmitFrom(vars, all, g.lo, NameList(vars, 0, g.lo)) == Ok([GroupVar(vars, g)] + rest.value)
  {
    var g := all[m];
    var i := g.lo;
    var have := NameList(vars, 0, i);
    assert Covered(all, i) by {
      assert all[m].lo <= i < all[m].hi;
    }
    assert vars[i].name !in have by {
      var names := NameList(vars, 0, |vars|);
      forall t | 0 <= t < i ensures have[t] != vars[i].name {
        assert have[t] == names[t] && vars[i].name == names[i];
      }
    }
    GroupAtOrdered(all, |vars|, m);
    var w := GroupVar(vars, g);
    var have' := have + w.vlist;
    assert w.vlist == NameList(vars, i, g.hi);
    NameListSplit(vars, 0, i, g.hi);
    forall t | i + 1 <= t < g.hi ensures Covered(all, t) && vars[t].name in have' {
      assert all[m].lo <= t < all[m].hi;
      assert have'[t] == vars[t].name;
    }
    SkipInside(vars, all, i + 1, g.hi, have');
  }

  /** A column no group covers is emitted on its own. */
  lemma SingleStep(vars: seq<Detected>, all: seq<Span>, i: nat)
    requires i < |vars| && Proper(|vars|, all) && !Covered(all, i)
    ensures var rest := EmitFrom(vars, all, i + 1, NameList(vars, 0, i + 1));
      rest.Ok? ==> EmitFrom(vars, all, i, NameList(vars, 0, i)) == Ok([Single(vars[i])] + rest.value)
  {
    assert NameList(vars, 0, i) + [vars[i].name] == NameList(vars, 0, i + 1);
  }

  /** Between groups, a column that starts none is covered by none. */
  lemma BetweenGroups(all: seq<Span>, n: nat, m: nat, i: nat)
    requires Ordered(n, all) && m <= |all|
    requires forall k :: 0 <= k < m ==> all[k].hi <= i
    requires forall k :: m <= k < |all| ==> i <= all[k].lo
    requires m == |all| || all[m].lo != i
    ensures !Covered(all, i)
    ensures forall k :: m <= k < |all| ==> i + 1 <= all[k].lo
  {
    forall k | m <= k < |all| ensures i + 1 <= all[k].lo {
      if k != m {
        assert all[m].hi <= all[k].lo;
      }
    }
  }

  /**
   * The general step: from a column `i` between groups, with the names of
   * all earlier columns emitted, the literal pass yields the layout of the
   * groups still ahead.
   */
  lemma {:induction false} EmitFromLayout(vars: seq<Detected>, all: seq<Span>, m: nat, i: nat)
    requires i <= |vars| && Ordered(|vars|, all) && m <= |all|
    requires Distinct(NameList(vars, 0, |vars|))
    requires forall k :: 0 <= k < m ==> all[k].hi <= i
    requires forall k :: m <= k < |all| ==> i <= all[k].lo
    ensures EmitFrom(vars, all, i, NameList(vars, 0, i)) == Ok(Layout(vars, all[m..], i))
    decreases |vars| - i
  {
    if i == |vars| {
    } else if m < |all| && all[m].lo == i {
      var g := all[m];
      forall k | m + 1 <= k < |all| ensures g.hi <= all[k].lo {
        assert all[m].hi <= all[k].lo;
      }
      EmitFromLayout(vars, all, m + 1, g.hi);
      GroupStep(vars, all, m);
      assert all[m..][0] == g && all[m..][1..] == all[m + 1..];
    } else {
      BetweenGroups(all, |vars|, m, i);
      EmitFromLayout(vars, all, m, i + 1);
      SingleStep(vars, all, i);
    }
  }

  /**
   * Lines 294-313 on ordered groups and distinct names: no `KeyError`, and
   * the result is the layout, so every column is emitted exactly once.
   */
  lemma EmitIsLayout(vars: seq<Detected>, gs: seq<Span>)
    requires Ordered(|vars|, gs) && Distinct(NameList(vars, 0, |vars|))
    ensures Emit(vars, gs) == Ok(Layout(vars, gs, 0))
    ensures Flatten(Emit(vars, gs).value) == NameList(vars, 0, |vars|)
  {
    assert NameList(vars, 0, 0) == [];
    assert gs[0..] == gs;
    EmitFromLayout(vars, gs, 0, 0);
    LayoutPartition(vars, gs, 0);
  }

  /**
   * With a repeated name the pass misbehaves: `B5, t, B5, B6` with the group
   * `B5, B6` at 2..4 skips index 2 (its name was emitted) and then looks up
   * a group at index 3, which does not exist.
   */
  lemma MissingGroupExample()
    ensures var vars := [Detected("B5", Number, false, []), Detected("t", Text, false, []),
                         Detected("B5", Number, false, []), Detected("B6", Number, false, [])];
      Emit(vars, [Span(2, 4)]) == Err(MissingGroup(3))
  {
    var vars := [Detected("B5", Number, false, []), Detected("t", Text, false, []),
                 Detected("B5", Number, false, []), Detected("B6", Number, false, [])];
    var gs := [Span(2, 4)];
    assert !Covered(gs, 0) && !Covered(gs, 1);
    assert gs[0].lo <= 2 < gs[0].hi && gs[0].lo <= 3 < gs[0].hi;
    assert GroupAt(gs, 3).None?;
    assert EmitFrom(vars, gs, 2, ["B5", "t"]) == Err(MissingGroup(3));
    assert EmitFrom(vars, gs, 1, ["B5"]) == Err(MissingGroup(3));
  }

  /**
   * A group whose names were all emitted earlier disappears: with `A1, A2`
   * twice and the group at 2..4, both members are skipped and no group
   * variable is emitted.
   */
  lemma DroppedGroupExample()
    ensures var vars := [Detected("A1", Text, false, []), Detected("A2", Text, false, []),
                         Detected("A1", Number, false, []), Detected("A2", Number, false, [])];
      Emit(vars, [Span(2, 4)]) == Ok([Single(vars[0]), Single(vars[1])])
  {
    var vars := [Detected("A1", Text, false, []), Detected("A2", Text, false, []),
                 Detected("A1", Number, false, []), Detected("A2", Number, false, [])];
    var gs := [Span(2, 4)];
    DroppedGroupTail(vars, gs);
    var none: seq<string> := [];
    assert none + [vars[0].name] == ["A1"];
    var r0 := EmitFrom(vars, gs, 0, none);
    assert !Covered(gs, 0);
    assert r0.Ok? && r0.value == [Single(vars[0])] + [Single(vars[1])] == [Single(vars[0]), Single(vars[1])];
    assert Emit(vars, gs) == r0;
  }

  /** The example above from its second variable on, with `A1` already emitted. */
  lemma DroppedGroupTail(vars: seq<Detected>, gs: seq<Span>)
    requires vars == [Detected("A1", Text, false, []), Detected("A2", Text, false, []),
                      Detected("A1", Number, false, []), Detected("A2", Number, false, [])]
    requires gs == [Span(2, 4)]
    ensures EmitFrom(vars, gs, 1, ["A1"]) == Ok([Single(vars[1])])
  {
    assert !Covered(gs, 1);
    assert gs[0].lo <= 2 < gs[0].hi && gs[0].lo <= 3 < gs[0].hi;
    var have := ["A1", "A2"];
    assert vars[2].name in have && vars[3].name in have;
    assert EmitFrom(vars, gs, 3, have) == Ok([]);
    assert EmitFrom(vars, gs, 2, have) == Ok([]);
    assert ["A1"] + [vars[1].name] == have;
    assert EmitFrom(vars, gs, 1, ["A1"]) == Ok([Single(vars[1])] + []);
    assert [Single(vars[1])] + [] == [Single(vars[1])];
  }
}

=== FILE: names.dfy ===
/**
 * Splitting a column name the way `re.findall(r'(.*?)(\d+)', name)[0]` does:
 * the first match of a lazy "anything but a newline" prefix followed by a
 * maximal run of digits.
 */
module Names {
  import opened Wrappers

  predicate IsDigit(c: char) {
    '0' <= c <= '9'
  }

  /** The two groups of the first match: the text before the digits and the digits. */
  datatype Split = Split(prefix: string, digits: string)

  /**
   * `lo..k` is the first match's prefix and `k..hi` its digits: `k` is the
   * first digit of `s`, the prefix reaches back to the start of that digit's
   * line (`.` does not match a newline), and the digit run is maximal.
   */
  ghost predicate FirstMatch(s: string, lo: nat, k: nat, hi: nat) {
    && lo <= k < hi <= |s|
    && (forall j :: 0 <= j < k ==> !IsDigit(s[j]))
    && (forall j :: lo <= j < k ==> s[j] != '\n')
    && (lo == 0 || s[lo - 1] == '\n')
    && (forall j :: k <= j < hi ==> IsDigit(s[j]))
    && (hi == |s| || !IsDigit(s[hi]))
  }

  /** The index of the first digit at or after `from`, or `|s|` when there is none. */
  function FirstDigitFrom(s: string, from: nat): (k: nat)
    requires from <= |s|
    ensures from <= k <= |s|
    ensures forall j :: from <= j < k ==> !IsDigit(s[j])
    ensures k < |s| ==> IsDigit(s[k])
    decreases |s| - from
  {
    if from == |s| || IsDigit(s[from]) then from else FirstDigitFrom(s, from + 1)
  }

  /** The start of the line that holds index `k`. */
  function LineStart(s: string, k: nat): (lo: nat)
    requires k <= |s|
    ensures lo <= k
    ensures forall j :: lo <= j < k ==> s[j] != '\n'
    ensures lo == 0 || s[lo - 1] == '\n'
  {
    if k == 0 || s[k - 1] == '\n' then k else LineStart(s, k - 1)
  }

  /** The end of the digit run that starts at or before `k`. */
  function DigitsEnd(s: string, k: nat): (hi: nat)
    requires k <= |s|
    ensures k <= hi <= |s|
    ensures forall j :: k <= j < hi ==> IsDigit(s[j])
    ensures hi == |s| || !IsDigit(s[hi])
    decreases |s| - k
  {
    if k == |s| || !IsDigit(s[k]) then k else DigitsEnd(s, k + 1)
  }

  /** The first regex match of `(.*?)(\d+)` in `s`, or None when `s` holds no digit. */
  function SplitName(s: string): (r: Option<Split>)
    ensures r.None? <==> forall j :: 0 <= j < |s| ==> !IsDigit(s[j])
    ensures r.Some? ==> exists lo: nat, k: nat, hi: nat ::
      FirstMatch(s, lo, k, hi) && r.value == Split(s[lo..k], s[k..hi])
  {
    var k := FirstDigitFrom(s, 0);
    if k == |s| then None
    else
      var lo := LineStart(s, k);
      var hi := DigitsEnd(s, k);
      assert FirstMatch(s, lo, k, hi);
      Some(Split(s[lo..k], s[k..hi]))
  }

  /** The first match is unique: a name determines its prefix and its digits. */
  lemma FirstMatchUnique(s: string, lo: nat, k: nat, hi: nat, lo': nat, k': nat, hi': nat)
    requires FirstMatch(s, lo, k, hi) && FirstMatch(s, lo', k', hi')
    ensures lo == lo' && k == k' && hi == hi'
  {
    assert IsDigit(s[k]) && IsDigit(s[k']);
    if lo > 0 {
      assert s[lo - 1] == '\n';
    }
    if lo' > 0 {
      assert s[lo' - 1] == '\n';
    }
    if hi < |s| {
      assert !IsDigit(s[hi]);
    }
    if hi' < |s| {
      assert !IsDigit(s[hi']);
    }
  }

  function DigitValue(c: char): nat
    requires IsDigit(c)
  {
    (c as int) - ('0' as int)
  }

  /** `int(digits)` for a string of ASCII digits, leading zeros allowed. */
  function DigitsValue(d: string): (v: nat)
    requires forall j :: 0 <= j < |d| ==> IsDigit(d[j])
  {
    if |d| == 0 then 0
    else DigitsValue(d[..|d| - 1]) * 10 + DigitValue(d[|d| - 1])
  }

  /** The leading text of a name's first match, or "" for a name without digits. */
  function PrefixOf(name: string): string {
    match SplitName(name)
    case Some(sp) => sp.prefix
    case None => ""
  }

  /** `int()` of a name's first digit run, or 0 for a name without digits. */
  function SuffixOf(name: string): nat {
    match SplitName(name)
    case Some(sp) =>
      assert forall j :: 0 <= j < |sp.digits| ==> IsDigit(sp.digits[j]);
      DigitsValue(sp.digits)
    case None => 0
  }

  /** How names split: the prefix is lazy and the digit run maximal. */
  lemma SplitNameExamples()
    ensures SplitName("Q12_a") == Some(Split("Q", "12"))
    ensures PrefixOf("Q12_a") == "Q" && SuffixOf("Q12_a") == 12
  {
    assert FirstDigitFrom("Q12_a", 0) == 1;
    assert DigitsEnd("Q12_a", 1) == 3;
    assert LineStart("Q12_a", 1) == 0;
    assert "Q12_a"[0..1] == "Q" && "Q12_a"[1..3] == "12";
    assert DigitsValue("12") == 12 by {
      assert "12"[..1] == "1";
      assert "1"[..0] == "";
    }
  }

  /** A name without a digit does not match. */
  lemma NoDigitExample()
    ensures SplitName("score") == None
  {
    assert FirstDigitFrom("score", 0) == 5;
  }

  /** `.` stops at a line break, so the prefix starts after the last one before the digits. */
  lemma LineBreakExample()
    ensures SplitName("a\nb7") == Some(Split("b", "7"))
  {
    assert FirstDigitFrom("a\nb7", 0) == 3;
    assert LineStart("a\nb7", 3) == 2;
    assert DigitsEnd("a\nb7", 3) == 4;
    assert "a\nb7"[2..3] == "b" && "a\nb7"[3..4] == "7";
  }
}

=== FILE: numeric.dfy ===
/**
 * The numeric branch of `dtype_detection`: rewrite float columns that hold
 * integers, then collapse columns with few distinct values to categories.
 */
module NumericBranch {
  import opened Wrappers
  import opened Values

  /** `astype(np.int64)` on one float: truncation toward zero. */
  function Trunc(x: real): (k: int)
    ensures 0.0 <= x ==> k as real <= x < k as real + 1.0
    ensures x < 0.0 ==> k as real - 1.0 < x <= k as real
  {
    if x >= 0.0 then x.Floor else -((-x).Floor)
  }

  predicate Integral(x: real) {
    x.Floor as real == x
  }

  /** The number a numeric cell holds (a numeric column holds nothing else). */
  function NumOf(v: Value): real {
    match v
    case Num(x) => x
    case _ => 0.0
  }

  predicate NumericCells(cells: seq<Cell>) {
    forall j :: 0 <= j < |cells| && cells[j].Val? ==> cells[j].value.Num?
  }

  predicate NonNegative(vs: seq<Value>) {
    forall v :: v in vs ==> NumOf(v) >= 0.0
  }

  predicate AllIntegral(vs: seq<Value>) {
    forall v :: v in vs ==> Integral(NumOf(v))
  }

  /** `dropna().sum()` */
  function Sum(vs: seq<Value>): real {
    if |vs| == 0 then 0.0 else NumOf(vs[0]) + Sum(vs[1..])
  }

  /** `dropna().astype(np.int64).sum()` */
  function TruncSum(vs: seq<Value>): int {
    if |vs| == 0 then 0 else Trunc(NumOf(vs[0])) + TruncSum(vs[1..])
  }

  /** The test at the head of the numeric branch: the truncated sum equals the sum. */
  predicate PassesIntegralCheck(cells: seq<Cell>) {
    TruncSum(Present(cells)) as real == Sum(Present(cells))
  }

  function TruncCell(c: Cell): Cell {
    match c
    case Na(_) => c
    case Val(v) => Val(Num(Trunc(NumOf(v)) as real))
  }

  function TruncCells(cells: seq<Cell>): (r: seq<Cell>)
    ensures |r| == |cells|
    ensures forall j :: 0 <= j < |cells| ==> r[j] == TruncCell(cells[j])
  {
    if |cells| == 0 then [] else [TruncCell(cells[0])] + TruncCells(cells[1..])
  }

  /** Truncating the cells keeps every missing cell missing and every present one present. */
  lemma {:induction false} TruncCellsKeepCount(cells: seq<Cell>)
    ensures Count(TruncCells(cells)) == Count(cells)
  {
    if |cells| > 0 {
      TruncCellsKeepCount(cells[1..]);
      assert TruncCells(cells)[1..] == TruncCells(cells[1..]);
    }
  }

  /**
   * Lines 143-144: when the truncated sum equals the sum, every present value
   * is replaced by its truncation; otherwise the column is left alone.
   */
  function CoerceIntegral(col: Column): (c: Column)
    ensures c.dtype == col.dtype && |c.cells| == |col.cells|
    ensures forall j :: 0 <= j < |col.cells| ==> (c.cells[j].Na? <==> col.cells[j].Na?)
    ensures Count(c.cells) == Count(col.cells)
    ensures !PassesIntegralCheck(col.cells) ==> c == col
  {
    TruncCellsKeepCount(col.cells);
    if PassesIntegralCheck(col.cells) then Column(col.dtype, TruncCells(col.cells)) else col
  }

  /** On non-negative values truncation loses exactly the fractional parts. */
  lemma {:induction false} TruncSumGap(vs: seq<Value>)
    requires NonNegative(vs)
    ensures TruncSum(vs) as real <= Sum(vs)
    ensures TruncSum(vs) as real == Sum(vs) <==> AllIntegral(vs)
  {
    if |vs| > 0 {
      assert forall v :: v in vs[1..] ==> v in vs;
      TruncSumGap(vs[1..]);
      var x := NumOf(vs[0]);
      assert Trunc(x) == x.Floor;
      assert vs[0] in vs;
      if AllIntegral(vs[1..]) && Integral(x) {
        assert vs == [vs[0]] + vs[1..];
      }
    }
  }

  /**
   * For a column without negative values the test is exactly "every value is
   * integral", which is what the rewrite is for.
   */
  lemma IntegralCheckOnNonNegative(cells: seq<Cell>)
    requires NonNegative(Present(cells))
    ensures PassesIntegralCheck(cells) <==> AllIntegral(Present(cells))
  {
    TruncSumGap(Present(cells));
  }

  /**
   * With mixed signs the fractional parts cancel: [1.5, -0.5] passes the test
   * and is rewritten to [1, 0], so the rewrite changes the data.
   */
  lemma MixedSignsTruncate()
    ensures var col := Column(Numeric, [Val(Num(1.5)), Val(Num(-0.5))]);
      && PassesIntegralCheck(col.cells)
      && !AllIntegral(Present(col.cells))
      && CoerceIntegral(col).cells == [Val(Num(1.0)), Val(Num(0.0))]
      && CoerceIntegral(col) != col
  {
    var cells := [Val(Num(1.5)), Val(Num(-0.5))];
    assert Present(cells) == [Num(1.5), Num(-0.5)] by {
      assert Present(cells[1..]) == [Num(-0.5)] by {
        assert cells[1..][1..] == [];
      }
    }
    assert Trunc(1.5) == 1;
    assert Trunc(-0.5) == 0;
    assert !Integral(1.5);
    var vs := Present(cells);
    assert vs[1..] == [Num(-0.5)];
    assert vs[1..][1..] == [];
    assert Sum(vs[1..][1..]) == 0.0 && TruncSum(vs[1..][1..]) == 0;
    assert Sum(vs[1..]) == -0.5 && TruncSum(vs[1..]) == 0;
    assert Sum(vs) == 1.0;
    assert TruncSum(vs) == 1;
    assert TruncCells(cells) == [Val(Num(1.0)), Val(Num(0.0))];
  }

  lemma TruncOfIntegral(x: real)
    requires Integral(x)
    ensures Trunc(x) as real == x
  {
    var k := x.Floor;
    assert (-x) == (-k) as real;
    assert ((-k) as real).Floor == -k;
  }

  /** Truncation leaves an integral numeric cell as it is. */
  lemma TruncKeepsIntegral(cells: seq<Cell>)
    requires NumericCells(cells) && AllIntegral(Present(cells))
    ensures TruncCells(cells) == cells
  {
    forall j | 0 <= j < |cells| ensures TruncCells(cells)[j] == cells[j] {
      if cells[j].Val? {
        assert Val(cells[j].value) in cells;
        TruncOfIntegral(NumOf(cells[j].value));
      }
    }
  }

  /**
   * The rewrite the check evidently means: replace values by their integer
   * form only when every present value is integral, so no value changes.
   */
  function CoerceIntegralFixed(col: Column): (c: Column)
    ensures NumericCells(col.cells) ==> c == col
    ensures c.dtype == col.dtype && Count(c.cells) == Count(col.cells)
  {
    if AllIntegral(Present(col.cells)) then
      TruncCellsKeepCount(col.cells);
      assert NumericCells(col.cells) ==> TruncCells(col.cells) == col.cells by {
        if NumericCells(col.cells) {
          TruncKeepsIntegral(col.cells);
        }
      }
      Column(col.dtype, TruncCells(col.cells))
    else col
  }

  /** `value_counts().mean() >= 2`; an empty count list has a NaN mean. */
  predicate MeanCountAtLeastTwo(n: nat, d: nat) {
    d > 0 && (n as real) / (d as real) >= 2.0
  }

  lemma MulPos(a: real, b: real)
    requires 0.0 < a && 0.0 < b
    ensures 0.0 < a * b
  {
  }

  /** Squaring is strictly monotone on the non-negative reals. */
  lemma SquareStrict(x: real, y: real)
    requires 0.0 <= x < y
    ensures x * x < y * y
  {
    MulPos(y - x, y + x);
    assert (y - x) * (y + x) == y * y - x * x;
  }

  /** For naturals, `d < sqrt(n)` is `d * d < n`. */
  lemma SqrtComparison(d: nat, n: nat, root: real)
    requires 0.0 <= root && root * root == n as real
    ensures (d as real) < root <==> d * d < n
  {
    var x := d as real;
    assert (d * d) as real == x * x;
    if x < root {
      SquareStrict(x, root);
    } else if root < x {
      SquareStrict(root, x);
    }
  }

  /** The mean-count test is implied by the distinct-count test. */
  lemma SqrtBoundGivesMeanCount(d: nat, n: nat)
    requires 1 <= d && d * d < n
    ensures 2 * d <= n
    ensures MeanCountAtLeastTwo(n, d)
  {
    if d >= 2 {
      assert d * d >= 2 * d;
    }
    assert (n as real) >= 2.0 * (d as real);
    assert (n as real) / (d as real) >= 2.0;
  }

  /**
   * Lines 145-150 on a coerced column: `n` is the non-missing count taken
   * before the rewrite.
   */
  function Categorize(cfg: Config, name: string, col: Column, n: nat): (Detected, Column)
    requires col.dtype.Numeric?
  {
    var d := DistinctCount(col.cells);
    if cfg.categoryDetection && d * d < n && MeanCountAtLeastTwo(Count(col.cells), d) then
      var c := ToCategory(col);
      (Detected(name, Category, c.dtype.ordered, c.dtype.cats), c)
    else
      (Detected(name, Number, false, []), col)
  }

  /**
   * The numeric branch: the column becomes a category exactly when category
   * detection is on and its distinct count `d` (after the rewrite) satisfies
   * `d * d < n`; the mean-count test never decides anything on its own.
   */
  function ClassifyNumeric(cfg: Config, name: string, col: Column): (r: (Detected, Column))
    requires col.dtype.Numeric?
    ensures r.0.name == name
    ensures r.0.vtype == Number || r.0.vtype == Category
    ensures var c := CoerceIntegral(col);
      r.0.vtype == Category <==>
        cfg.categoryDetection && DistinctCount(c.cells) * DistinctCount(c.cells) < Count(col.cells)
    ensures r.0.vtype == Number ==>
      !r.0.ordered && r.0.categories == [] && r.1 == CoerceIntegral(col)
    ensures r.0.vtype == Category ==>
      && r.1.cells == MissingAsNaN(CoerceIntegral(col).cells)
      && r.1.dtype == Categorical(false, r.0.categories)
      && Distinct(r.0.categories)
      && |r.0.categories| >= 1
      && (forall v :: v in r.0.categories <==> Val(v) in r.1.cells)
  {
    var c := CoerceIntegral(col);
    var d := DistinctCount(c.cells);
    DistinctCountBounds(c.cells);
    assert d * d < Count(col.cells) ==> MeanCountAtLeastTwo(Count(c.cells), d) by {
      if d * d < Count(col.cells) {
        SqrtBoundGivesMeanCount(d, Count(col.cells));
      }
    }
    Categorize(cfg, name, c, Count(col.cells))
  }

  /** The numeric branch with the corrected rewrite. */
  function ClassifyNumericFixed(cfg: Config, name: string, col: Column): (r: (Detected, Column))
    requires col.dtype.Numeric?
    ensures r.0.name == name
    ensures NumericCells(col.cells) ==> (r.0.vtype == Category <==>
      cfg.categoryDetection && DistinctCount(col.cells) * DistinctCount(col.cells) < Count(col.cells))
    ensures NumericCells(col.cells) ==> |r.1.cells| == |col.cells| && Present(r.1.cells) == Present(col.cells)
    ensures NumericCells(col.cells) ==> forall j :: 0 <= j < |col.cells| && col.cells[j].Val? ==> r.1.cells[j] == col.cells[j]
    ensures NumericCells(col.cells) && NaNMissing(col.cells) ==> r.1.cells == col.cells
  {
    var c := CoerceIntegralFixed(col);
    assert NaNMissing(c.cells) ==> MissingAsNaN(c.cells) == c.cells by {
      if NaNMissing(c.cells) {
        MissingAsNaNKeeps(c.cells);
      }
    }
    var d := DistinctCount(c.cells);
    DistinctCountBounds(c.cells);
    assert d * d < Count(col.cells) ==> MeanCountAtLeastTwo(Count(c.cells), d) by {
      if d * d < Count(col.cells) {
        SqrtBoundGivesMeanCount(d, Count(col.cells));
      }
    }
    Categorize(cfg, name, c, Count(col.cells))
  }
}

=== FILE: scan.dfy ===
/**
 * The grouping scan of `var_detection` (lines 269-293): it walks the
 * per-column results looking for runs of numeric columns named
 * `<prefix><n>`, `<prefix><n+1>`, ... and records each confirmed run as an
 * index range. The source loop does not advance past a run it rejects, so on
 * such input it never ends; the scan here reports that instead.
 *
 * The scan only ever looks at two things of a column: whether it is numeric,
 * and how its name splits at the first digit run. Those are gathered into a
 * `Key` per column first, and the scan works on the keys.
 */
module Scan {
  import opened Wrappers
  import opened Values
  import opened Names

  /** What the scan sees of one entry of `var_list`. */
  datatype Key = Key(number: bool, named: bool, prefix: string, suffix: nat)

  /** Lines 279-285: the type test and `re.findall(r'(.*?)(\d+)', name)[0]`. */
  function KeyOf(v: Detected): (k: Key)
    ensures k.number <==> v.vtype == Number
    ensures k.named <==> exists j :: 0 <= j < |v.name| && IsDigit(v.name[j])
    ensures k.prefix == PrefixOf(v.name) && k.suffix == SuffixOf(v.name)
  {
    Key(v.vtype == Number, SplitName(v.name).Some?, PrefixOf(v.name), SuffixOf(v.name))
  }

  function Keys(vars: seq<Detected>): (ks: seq<Key>)
    ensures |ks| == |vars|
    ensures forall j :: 0 <= j < |vars| ==> ks[j] == KeyOf(vars[j])
  {
    seq(|vars|, j requires 0 <= j < |vars| => KeyOf(vars[j]))
  }

  /** A confirmed group: the half-open index range `lo..hi` of `var_list`. */
  datatype Span = Span(lo: nat, hi: nat)

  /** The loop's variables: the index `i` and the groups found so far (`var_group`). */
  datatype ScanState = ScanState(i: nat, groups: seq<Span>)

  const Init := ScanState(0, [])

  /** What one pass of the loop body does at `i`. */
  datatype Action = Skip | Take(len: nat) | Reject(len: nat)

  /** The outcome of the whole scan. */
  datatype ScanOutcome = Finished(groups: seq<Span>) | Stalled(at: nat)

  /** An entry the inner `for` loop accepts: numeric, and its name holds a digit. */
  predicate Groupable(k: Key) {
    k.number && k.named
  }

  /** Lines 278-285: the number of acceptable entries in a row from `i` (`len(tmp1)`). */
  function RunLength(ks: seq<Key>, i: nat): (len: nat)
    requires i <= |ks|
    ensures i + len <= |ks|
    ensures forall j :: i <= j < i + len ==> Groupable(ks[j])
    ensures i + len == |ks| || !Groupable(ks[i + len])
    decreases |ks| - i
  {
    if i == |ks| || !Groupable(ks[i]) then 0 else 1 + RunLength(ks, i + 1)
  }

  function Prefixes(ks: seq<Key>, lo: nat, hi: nat): (ps: seq<string>)
    requires lo <= hi <= |ks|
    ensures |ps| == hi - lo
    ensures forall j :: 0 <= j < hi - lo ==> ps[j] == ks[lo + j].prefix
  {
    seq(hi - lo, j requires 0 <= j < hi - lo => ks[lo + j].prefix)
  }

  function Suffixes(ks: seq<Key>, lo: nat, hi: nat): (xs: seq<int>)
    requires lo <= hi <= |ks|
    ensures |xs| == hi - lo
    ensures forall j :: 0 <= j < hi - lo ==> xs[j] == ks[lo + j].suffix
  {
    seq(hi - lo, j requires 0 <= j < hi - lo => ks[lo + j].suffix as int)
  }

  /** `np.diff(xs).sum()`: the sum of the differences of neighbours. */
  function DiffSum(xs: seq<int>): int {
    if |xs| < 2 then 0 else (xs[1] - xs[0]) + DiffSum(xs[1..])
  }

  /** The differences telescope: only the first and the last entry matter. */
  lemma {:induction false} DiffSumTelescopes(xs: seq<int>)
    requires |xs| >= 1
    ensures DiffSum(xs) == xs[|xs| - 1] - xs[0]
    decreases |xs|
  {
    if |xs| >= 2 {
      DiffSumTelescopes(xs[1..]);
    }
  }

  /** `len(set(prefixes)) == 1`: the list is non-empty and every entry equals the first. */
  predicate SamePrefix(ps: seq<string>) {
    |ps| > 0 && forall j :: 0 <= j < |ps| ==> ps[j] == ps[0]
  }

  /** The formulation above is the source's set-cardinality test. */
  lemma SamePrefixIsSingletonSet(ps: seq<string>)
    ensures SamePrefix(ps) <==> |set p | p in ps| == 1
  {
    var st := set p | p in ps;
    if SamePrefix(ps) {
      assert st == {ps[0]};
    }
    if |st| == 1 {
      var x :| x in st;
      assert |st - {x}| == 0;
      forall j | 0 <= j < |ps| ensures ps[j] == x {
        assert ps[j] !in st - {x};
      }
      assert ps[0] in st;
    }
  }

  /** Lines 289-291: one prefix throughout, and the suffix differences sum to `len - 1`. */
  predicate Confirmed(ks: seq<Key>, i: nat, len: nat)
    requires i + len <= |ks|
  {
    SamePrefix(Prefixes(ks, i, i + len)) && DiffSum(Suffixes(ks, i, i + len)) == len - 1
  }

  /**
   * The confirmation only compares the first and the last suffix: a run is
   * accepted exactly when it shares one prefix and its last number exceeds
   * its first by the run's length minus one, whatever lies in between.
   */
  lemma ConfirmedIff(ks: seq<Key>, i: nat, len: nat)
    requires 1 <= len && i + len <= |ks|
    ensures Confirmed(ks, i, len) <==>
      (&& (forall j :: i <= j < i + len ==> ks[j].prefix == ks[i].prefix)
       && ks[i + len - 1].suffix - ks[i].suffix == len - 1)
  {
    var xs := Suffixes(ks, i, i + len);
    DiffSumTelescopes(xs);
    var ps := Prefixes(ks, i, i + len);
    if forall j :: i <= j < i + len ==> ks[j].prefix == ks[i].prefix {
      assert forall j :: 0 <= j < |ps| ==> ps[j] == ps[0];
    }
    if SamePrefix(ps) {
      forall j | i <= j < i + len ensures ks[j].prefix == ks[i].prefix {
        assert ps[j - i] == ps[0];
      }
    }
  }

  /** Lines 273-291: what the body decides at `i`. */
  function Decide(ks: seq<Key>, i: nat): (a: Action)
    requires i + 1 < |ks|
    ensures a.Take? || a.Reject? <==>
      ks[i].number && ks[i + 1].number && RunLength(ks, i) >= 2
    ensures a.Take? || a.Reject? ==> a.len == RunLength(ks, i)
    ensures a.Take? ==> Confirmed(ks, i, a.len)
    ensures a.Reject? ==> !Confirmed(ks, i, a.len)
  {
    if !ks[i].number || !ks[i + 1].number then Skip
    else
      var len := RunLength(ks, i);
      if len < 2 then Skip
      else if Confirmed(ks, i, len) then Take(len)
      else Reject(len)
  }

  /** The `while` guard at line 272. */
  predicate Loops(ks: seq<Key>, s: ScanState) {
    s.i + 1 < |ks|
  }

  /** One pass of the loop body; a rejected run leaves the state as it was. */
  function Body(ks: seq<Key>, s: ScanState): ScanState
    requires Loops(ks, s)
  {
    match Decide(ks, s.i)
    case Skip => ScanState(s.i + 1, s.groups)
    case Take(len) => ScanState(s.i + len, s.groups + [Span(s.i, s.i + len)])
    case Reject(_) => s
  }

  /** The body advances `i` unless it rejects a run, and then changes nothing. */
  lemma BodyProgress(ks: seq<Key>, s: ScanState)
    requires Loops(ks, s)
    ensures Decide(ks, s.i).Skip? ==> Body(ks, s) == ScanState(s.i + 1, s.groups)
    ensures Decide(ks, s.i).Take? ==> Body(ks, s).i == s.i + RunLength(ks, s.i)
    ensures Body(ks, s) == s <==> Decide(ks, s.i).Reject?
    ensures Body(ks, s) != s ==> Body(ks, s).i > s.i
  {
  }

  /** One iteration of the `while` statement: the body when the guard holds. */
  function Next(ks: seq<Key>, s: ScanState): ScanState {
    if Loops(ks, s) then Body(ks, s) else s
  }

  /** The state after `k` iterations of the source loop. */
  function Run(ks: seq<Key>, s: ScanState, k: nat): ScanState
    decreases k
  {
    if k == 0 then s else Run(ks, Next(ks, s), k - 1)
  }

  lemma {:induction false} RunSucc(ks: seq<Key>, s: ScanState, k: nat)
    ensures Run(ks, s, k + 1) == Next(ks, Run(ks, s, k))
    decreases k
  {
    if k > 0 {
      RunSucc(ks, Next(ks, s), k - 1);
    }
  }

  lemma {:induction false} RunAdd(ks: seq<Key>, s: ScanState, a: nat, b: nat)
    ensures Run(ks, s, a + b) == Run(ks, Run(ks, s, a), b)
    decreases a
  {
    if a > 0 {
      RunAdd(ks, Next(ks, s), a - 1, b);
    }
  }

  /** A state the body leaves unchanged is kept by every further iteration. */
  lemma {:induction false} StallIsForever(ks: seq<Key>, s: ScanState, k: nat)
    requires Next(ks, s) == s
    ensures Run(ks, s, k) == s
    decreases k
  {
    if k > 0 {
      StallIsForever(ks, s, k - 1);
    }
  }

  /** A group as recorded: a maximal confirmed run of at least two numeric entries. */
  predicate IsGroup(ks: seq<Key>, g: Span) {
    && g.lo + 2 <= g.hi <= |ks|
    && g.hi - g.lo == RunLength(ks, g.lo)
    && Confirmed(ks, g.lo, g.hi - g.lo)
    && (forall t :: g.lo <= t < g.hi ==> ks[t].number)
  }

  /** Groups are proper, and each ends at or before the next one starts. */
  predicate WellFormed(ks: seq<Key>, gs: seq<Span>)
    decreases |gs|
  {
    |gs| == 0 ||
    (&& IsGroup(ks, gs[0])
     && (|gs| == 1 || gs[0].hi <= gs[1].lo)
     && WellFormed(ks, gs[1..]))
  }

  /** Well-formed groups are groups, in ascending order and pairwise disjoint. */
  lemma {:induction false} WellFormedGroups(ks: seq<Key>, gs: seq<Span>)
    requires WellFormed(ks, gs)
    ensures forall k :: 0 <= k < |gs| ==> IsGroup(ks, gs[k])
    ensures forall k, l :: 0 <= k < l < |gs| ==> gs[k].hi <= gs[l].lo
    decreases |gs|
  {
    if |gs| > 0 {
      WellFormedGroups(ks, gs[1..]);
      assert forall k :: 1 <= k < |gs| ==> gs[k] == gs[1..][k - 1];
    }
  }

  lemma TakeIsGroup(ks: seq<Key>, i: nat)
    requires i + 1 < |ks| && Decide(ks, i).Take?
    ensures IsGroup(ks, Span(i, i + Decide(ks, i).len))
  {
  }

  /**
   * The scan as evidently intended: a rejected run advances `i` by one like a
   * short one does, so the scan always ends.
   */
  function FixedGroups(ks: seq<Key>, i: nat): (gs: seq<Span>)
    ensures WellFormed(ks, gs)
    ensures |gs| > 0 ==> i <= gs[0].lo
    decreases |ks| - i
  {
    if i + 1 >= |ks| then []
    else
      match Decide(ks, i)
      case Take(len) =>
        var rest := FixedGroups(ks, i + len);
        var g := Span(i, i + len);
        TakeIsGroup(ks, i);
        assert ([g] + rest)[1..] == rest;
        [g] + rest
      case _ => FixedGroups(ks, i + 1)
  }

  lemma FixedGroupsUnfold(ks: seq<Key>, i: nat)
    requires i + 1 < |ks|
    ensures Decide(ks, i).Skip? ==> FixedGroups(ks, i) == FixedGroups(ks, i + 1)
    ensures Decide(ks, i).Take? ==> var len := Decide(ks, i).len;
      FixedGroups(ks, i) == [Span(i, i + len)] + FixedGroups(ks, i + len)
  {
  }

  lemma ConsAssoc<T>(a: seq<T>, x: T, b: seq<T>)
    ensures a + ([x] + b) == (a + [x]) + b
  {
  }

  /** Where the source's body advances, it finds the groups the corrected scan finds. */
  lemma FixedGroupsStep(ks: seq<Key>, s: ScanState)
    requires Loops(ks, s) && Body(ks, s) != s
    ensures s.groups + FixedGroups(ks, s.i) == Body(ks, s).groups + FixedGroups(ks, Body(ks, s).i)
  {
    var a := Decide(ks, s.i);
    var t := Body(ks, s);
    if a.Take? {
      var g := Span(s.i, s.i + a.len);
      var rest := FixedGroups(ks, s.i + a.len);
      assert t == ScanState(s.i + a.len, s.groups + [g]);
      FixedGroupsUnfold(ks, s.i);
      ConsAssoc(s.groups, g, rest);
    } else {
      assert a.Skip? && t == ScanState(s.i + 1, s.groups);
      FixedGroupsUnfold(ks, s.i);
    }
  }

  /** Once the loop reaches a state it keeps, the guard holds after any number of iterations. */
  lemma StuckLoops(ks: seq<Key>, s: ScanState, steps: nat)
    requires s == Run(ks, Init, steps) && Loops(ks, s) && Next(ks, s) == s
    requires forall k: nat :: k < steps ==> Loops(ks, Run(ks, Init, k))
    ensures forall k: nat :: Loops(ks, Run(ks, Init, k))
  {
    forall k: nat ensures Loops(ks, Run(ks, Init, k)) {
      if k >= steps {
        RunAdd(ks, Init, steps, k - steps);
        StallIsForever(ks, s, k - steps);
      }
    }
  }

  /**
   * The scan of lines 269-293. It either finishes after `steps` iterations of
   * the source loop with the source's groups, which are those of the
   * corrected scan, or reaches a rejected run, in which case no number of
   * iterations ever leaves the loop.
   */
  method ScanGroups(ks: seq<Key>) returns (r: ScanOutcome, steps: nat)
    ensures r.Finished? ==> !Loops(ks, Run(ks, Init, steps))
    ensures r.Finished? ==> r.groups == Run(ks, Init, steps).groups
    ensures r.Finished? ==> WellFormed(ks, r.groups) && r.groups == FixedGroups(ks, 0)
    ensures r.Stalled? ==> r.at + 1 < |ks| && Decide(ks, r.at).Reject?
    ensures r.Stalled? ==> Run(ks, Init, steps).i == r.at
    ensures r.Stalled? ==> forall k: nat :: Loops(ks, Run(ks, Init, k))
  {
    var s := Init;
    steps := 0;
    while Loops(ks, s)
      invariant s == Run(ks, Init, steps)
      invariant forall k: nat :: k < steps ==> Loops(ks, Run(ks, Init, k))
      invariant s.groups + FixedGroups(ks, s.i) == FixedGroups(ks, 0)
      decreases |ks| - s.i
    {
      var next := Body(ks, s);
      RunSucc(ks, Init, steps);
      BodyProgress(ks, s);
      if next == s {
        StuckLoops(ks, s, steps);
        return Stalled(s.i), steps;
      }
      FixedGroupsStep(ks, s);
      forall k: nat | k < steps + 1 ensures Loops(ks, Run(ks, Init, k)) {
        if k == steps {
          assert Run(ks, Init, k) == s;
        }
      }
      s := next;
      steps := steps + 1;
    }
    assert FixedGroups(ks, s.i) == [];
    assert s.groups + [] == s.groups;
    r := Finished(s.groups);
  }

  /** The span test on the keys of the three example runs below. */
  lemma SpanTestKeys()
    ensures Decide([Key(true, true, "Item", 1), Key(true, true, "Item", 5), Key(true, true, "Item", 3)], 0) == Take(3)
    ensures Decide([Key(true, true, "Item", 1), Key(true, true, "Item", 3), Key(true, true, "Item", 2)], 0) == Reject(3)
    ensures Decide([Key(true, true, "Q", 1), Key(true, true, "Q", 1), Key(true, true, "Q", 1)], 0) == Reject(3)
  {
    var a := [Key(true, true, "Item", 1), Key(true, true, "Item", 5), Key(true, true, "Item", 3)];
    var b := [Key(true, true, "Item", 1), Key(true, true, "Item", 3), Key(true, true, "Item", 2)];
    assert RunLength(a, 0) == 3 && RunLength(b, 0) == 3;
    ConfirmedIff(a, 0, 3);
    ConfirmedIff(b, 0, 3);
    var c := [Key(true, true, "Q", 1), Key(true, true, "Q", 1), Key(true, true, "Q", 1)];
    assert RunLength(c, 0) == 3;
    ConfirmedIff(c, 0, 3);
  }

  /** Where the first match lies in a digit-free, single-line prefix, one digit, and a non-digit tail. */
  lemma FirstMatchOfName(p: string, d: char, rest: string)
    requires forall j :: 0 <= j < |p| ==> !IsDigit(p[j]) && p[j] != '\n'
    requires IsDigit(d) && (|rest| == 0 || !IsDigit(rest[0]))
    ensures FirstMatch(p + [d] + rest, 0, |p|, |p| + 1)
  {
    var s := p + [d] + rest;
    var k := |p|;
    assert forall j :: 0 <= j < k ==> s[j] == p[j];
    assert s[k] == d;
    assert k + 1 < |s| ==> s[k + 1] == rest[0];
  }

  /** Such a name splits into the prefix and the digit. */
  lemma SplitOfName(p: string, d: char, rest: string)
    requires forall j :: 0 <= j < |p| ==> !IsDigit(p[j]) && p[j] != '\n'
    requires IsDigit(d) && (|rest| == 0 || !IsDigit(rest[0]))
    ensures SplitName(p + [d] + rest) == Some(Split(p, [d]))
  {
    var s := p + [d] + rest;
    var k := |p|;
    FirstMatchOfName(p, d, rest);
    assert IsDigit(s[k]);
    var r := SplitName(s);
    assert r.Some?;
    var lo: nat, k': nat, hi: nat :| FirstMatch(s, lo, k', hi) && r.value == Split(s[lo..k'], s[k'..hi]);
    FirstMatchUnique(s, lo, k', hi, 0, k, k + 1);
    assert s[0..k] == p && s[k..k + 1] == [d];
  }

  /**
   * The key of a numeric column named by a digit-free, single-line prefix,
   * one digit, and a tail that does not start with a digit.
   */
  lemma KeyOfName(p: string, d: char, rest: string)
    requires forall j :: 0 <= j < |p| ==> !IsDigit(p[j]) && p[j] != '\n'
    requires IsDigit(d) && (|rest| == 0 || !IsDigit(rest[0]))
    ensures KeyOf(Detected(p + [d] + rest, Number, false, [])) == Key(true, true, p, DigitValue(d))
  {
    SplitOfName(p, d, rest);
    assert [d][..0] == [];
    assert DigitsValue([d]) == DigitValue(d);
  }

  function NumberCol(name: string): Detected {
    Detected(name, Number, false, [])
  }

  /**
   * The span test accepts `Item1, Item5, Item3` (5 - 1 and 3 - 5 sum to 2)
   * and rejects `Item1, Item3, Item2`, although the latter holds a permutation
   * of consecutive numbers and the former does not. `Q1_a, Q1_b, Q1_c`
   * share prefix and number, so their differences sum to 0 and the run is
   * rejected.
   */
  lemma SpanTestExamples()
    ensures Decide(Keys([NumberCol("Item1"), NumberCol("Item5"), NumberCol("Item3")]), 0) == Take(3)
    ensures Decide(Keys([NumberCol("Item1"), NumberCol("Item3"), NumberCol("Item2")]), 0) == Reject(3)
    ensures Decide(Keys([NumberCol("Q1_a"), NumberCol("Q1_b"), NumberCol("Q1_c")]), 0) == Reject(3)
  {
    ItemKeys();
    QuestionKeys();
    SpanTestKeys();
  }

  /** The key of `Item<d>`. */
  lemma KeyOfItem(d: char)
    requires IsDigit(d)
    ensures KeyOf(NumberCol(['I', 't', 'e', 'm', d])) == Key(true, true, "Item", DigitValue(d))
  {
    assert ['I', 't', 'e', 'm', d] == "Item" + [d] + [];
    KeyOfName("Item", d, []);
  }

  /** The keys of three columns, from the keys of each. */
  lemma KeysOfThree(a: Detected, b: Detected, c: Detected)
    ensures Keys([a, b, c]) == [KeyOf(a), KeyOf(b), KeyOf(c)]
  {
    var ks := Keys([a, b, c]);
    assert ks[0] == KeyOf(a) && ks[1] == KeyOf(b) && ks[2] == KeyOf(c);
  }

  /** The keys of the `Item<n>` columns. */
  lemma ItemKeys()
    ensures Keys([NumberCol("Item1"), NumberCol("Item5"), NumberCol("Item3")])
      == [Key(true, true, "Item", 1), Key(true, true, "Item", 5), Key(true, true, "Item", 3)]
    ensures Keys([NumberCol("Item1"), NumberCol("Item3"), NumberCol("Item2")])
      == [Key(true, true, "Item", 1), Key(true, true, "Item", 3), Key(true, true, "Item", 2)]
  {
    KeyOfItem('1');
    KeyOfItem('2');
    KeyOfItem('3');
    KeyOfItem('5');
    KeysOfThree(NumberCol("Item1"), NumberCol("Item5"), NumberCol("Item3"));
    KeysOfThree(NumberCol("Item1"), NumberCol("Item3"), NumberCol("Item2"));
  }

  /** The key of `Q1_<c>`. */
  lemma KeyOfQuestion(c: char)
    ensures KeyOf(NumberCol(['Q', '1', '_', c])) == Key(true, true, "Q", 1)
  {
    assert ['Q', '1', '_', c] == "Q" + ['1'] + ['_', c];
    KeyOfName("Q", '1', ['_', c]);
  }

  /** The keys of `Q1_a, Q1_b, Q1_c`: one prefix and one number. */
  lemma QuestionKeys()
    ensures Keys([NumberCol("Q1_a"), NumberCol("Q1_b"), NumberCol("Q1_c")])
      == [Key(true, true, "Q", 1), Key(true, true, "Q", 1), Key(true, true, "Q", 1)]
  {
    KeyOfQuestion('a');
    KeyOfQuestion('b');
    KeyOfQuestion('c');
    KeysOfThree(NumberCol("Q1_a"), NumberCol("Q1_b"), NumberCol("Q1_c"));
  }

  /**
   * Two numeric columns `a1`, `b2`: their prefixes differ, so the run is
   * rejected, the body leaves the state alone, and the source loop never ends.
   */
  lemma StallExample()
    ensures var ks := Keys([Detected("a1", Number, false, []), Detected("b2", Number, false, [])]);
      Decide(ks, 0) == Reject(2) && Next(ks, Init) == Init && forall k: nat :: Loops(ks, Run(ks, Init, k))
  {
    var ks := Keys([Detected("a1", Number, false, []), Detected("b2", Number, false, [])]);
    assert "a1" == "a" + ['1'] + "" && "b2" == "b" + ['2'] + "";
    KeyOfName("a", '1', "");
    KeyOfName("b", '2', "");
    assert ks == [Key(true, true, "a", 1), Key(true, true, "b", 2)];
    assert RunLength(ks, 0) == 2;
    ConfirmedIff(ks, 0, 2);
    assert Next(ks, Init) == Init;
    StuckLoops(ks, Init, 0);
  }
}

=== FILE: text.dfy ===
/**
 * The string branch of `dtype_detection`: timestamp detection, collapse to
 * categories, percent strings to fractions, and the final resolution by
 * priority category > datetime > structured text > number > text.
 */
module TextBranch {
  import opened Wrappers
  import opened Values

  /**
   * Lines 153-154: the length of `'%s' % x` for every cell whose rendering is
   * not "nan", in order. A missing None counts as "None" and a NaT as "NaT";
   * only a NaN (or a value rendered "nan") is skipped.
   */
  function Lengths(env: Env, cells: seq<Cell>): (lens: seq<nat>)
    ensures |lens| <= |cells|
  {
    if |cells| == 0 then []
    else
      var head: seq<nat> := if Shown(env, cells[0]) then [|Show(env, cells[0])|] else [];
      head + Lengths(env, cells[1..])
  }

  /** The cell's rendering is not "nan", so line 153 takes its length. */
  predicate Shown(env: Env, c: Cell) {
    Show(env, c) != "nan"
  }

  /** The lengths are taken cell by cell: on a concatenation they concatenate. */
  lemma {:induction false} LengthsConcat(env: Env, a: seq<Cell>, b: seq<Cell>)
    ensures Lengths(env, a + b) == Lengths(env, a) + Lengths(env, b)
  {
    if |a| == 0 {
      assert a + b == b;
    } else {
      assert (a + b)[0] == a[0] && (a + b)[1..] == a[1..] + b;
      LengthsConcat(env, a[1..], b);
    }
  }

  /** The positions of the cells whose rendering is not "nan". */
  function ShownPositions(env: Env, cells: seq<Cell>): (ps: set<nat>)
    ensures forall j: nat :: j in ps <==> j < |cells| && Shown(env, cells[j])
  {
    if |cells| == 0 then {}
    else
      var k := |cells| - 1;
      assert forall j :: 0 <= j < k ==> cells[..k][j] == cells[j];
      ShownPositions(env, cells[..k]) + if Shown(env, cells[k]) then {k} else {}
  }

  lemma SplitLast<T>(s: seq<T>)
    requires |s| > 0
    ensures s == s[..|s| - 1] + [s[|s| - 1]]
  {
  }

  /** A single cell gives the length of its rendering, unless it is rendered "nan". */
  lemma LengthsOne(env: Env, c: Cell)
    ensures Lengths(env, [c]) == if Shown(env, c) then [|Show(env, c)|] else []
  {
    assert [c][1..] == [];
  }

  /** One length per cell not rendered "nan". */
  lemma {:induction false} LengthsCount(env: Env, cells: seq<Cell>)
    ensures |Lengths(env, cells)| == |ShownPositions(env, cells)|
  {
    if |cells| > 0 {
      var k := |cells| - 1;
      var init := cells[..k];
      LengthsCount(env, init);
      SplitLast(cells);
      LengthsConcat(env, init, [cells[k]]);
      LengthsOne(env, cells[k]);
      if Shown(env, cells[k]) {
        assert k !in ShownPositions(env, init);
      }
    }
  }

  function SumLen(xs: seq<nat>): nat {
    if |xs| == 0 then 0 else xs[0] + SumLen(xs[1..])
  }

  function SumSq(xs: seq<nat>): nat {
    if |xs| == 0 then 0 else xs[0] * xs[0] + SumSq(xs[1..])
  }

  /**
   * `tmp.std() < 0.1` with the sample standard deviation (ddof 1), which is NaN
   * below two values: variance `(n*S2 - S1*S1) / (n*(n-1)) < 1/100`.
   */
  predicate LowSpread(lens: seq<nat>) {
    var n := |lens|;
    n >= 2 && 100 * (n * SumSq(lens) - SumLen(lens) * SumLen(lens)) < n * (n - 1)
  }

  /** `tmp.std() == 0`: at least two lengths, all equal. */
  predicate EqualLengths(lens: seq<nat>) {
    |lens| >= 2 && forall j :: 0 <= j < |lens| ==> lens[j] == lens[0]
  }

  lemma {:induction false} ConstantSums(xs: seq<nat>, c: nat)
    requires forall j :: 0 <= j < |xs| ==> xs[j] == c
    ensures SumLen(xs) == |xs| * c
    ensures SumSq(xs) == |xs| * (c * c)
  {
    if |xs| > 0 {
      ConstantSums(xs[1..], c);
    }
  }

  /** Equal lengths always pass the near-constant-length guard. */
  lemma EqualLengthsHaveLowSpread(lens: seq<nat>)
    requires EqualLengths(lens)
    ensures LowSpread(lens)
  {
    var n, c := |lens|, lens[0];
    ConstantSums(lens, c);
    assert n * (n * (c * c)) == (n * c) * (n * c);
  }

  function MaxOf(xs: seq<nat>): (m: nat)
    requires |xs| > 0
    ensures m in xs
    ensures forall j :: 0 <= j < |xs| ==> xs[j] <= m
  {
    if |xs| == 1 then xs[0]
    else
      var m := MaxOf(xs[1..]);
      assert forall j :: 1 <= j < |xs| ==> xs[j] == xs[1..][j - 1];
      if xs[0] >= m then xs[0] else m
  }

  /** `any(data[c].dropna().map(is_number))` */
  predicate HasNumber(vs: seq<Value>) {
    exists j :: 0 <= j < |vs| && vs[j].Num?
  }

  /** Line 155: no numbers, longest rendering strictly between 7 and 20, near-constant length. */
  predicate MaybeTimestamps(env: Env, cells: seq<Cell>) {
    var lens := Lengths(env, cells);
    && !HasNumber(Present(cells))
    && |lens| > 0
    && 7 < MaxOf(lens) < 20
    && LowSpread(lens)
  }

  /** `pd.to_datetime` succeeds on the whole column only if every present value parses. */
  predicate AllParse(env: Env, cells: seq<Cell>) {
    forall j :: 0 <= j < |cells| && cells[j].Val? ==> env.parseStamp(cells[j].value).Some?
  }

  /** No present value carries a zone. */
  predicate AllNaive(env: Env, vs: seq<Value>) {
    forall j :: 0 <= j < |vs| ==> env.zoneOf(vs[j]).None?
  }

  /**
   * The storage `pd.to_datetime` gives a column whose values all parse
   * (pandas 0.24 on): zone-less timestamps when no value carries a zone,
   * timestamps at one offset when every value carries that offset, and an
   * object column of timestamps when the offsets differ or zoned and
   * zone-less values mix.
   */
  function ParsedDtype(env: Env, cells: seq<Cell>): (d: Dtype)
    ensures d == Datetime64 || d.DatetimeTz? || d == Object
    ensures d == Datetime64 <==> forall v :: Val(v) in cells ==> env.zoneOf(v).None?
    ensures d.DatetimeTz? ==> forall v :: Val(v) in cells ==> env.zoneOf(v) == Some(d.offset)
    ensures d == Object ==> exists v, w :: Val(v) in cells && Val(w) in cells && env.zoneOf(v) != env.zoneOf(w)
  {
    var vs := Present(cells);
    if AllNaive(env, vs) then Datetime64
    else
      var z := env.zoneOf(vs[0]);
      if z.Some? && forall j :: 0 <= j < |vs| ==> env.zoneOf(vs[j]) == z then DatetimeTz(z.value)
      else
        var j :| 0 <= j < |vs| && env.zoneOf(vs[j]) != z;
        assert vs[0] in vs && vs[j] in vs;
        Object
  }

  function ParseCells(env: Env, cells: seq<Cell>): (r: seq<Cell>)
    requires AllParse(env, cells)
    ensures |r| == |cells|
    ensures forall j :: 0 <= j < |cells| ==>
      (cells[j].Na? ==> r[j] == Na(NaT)) &&
      (cells[j].Val? ==> r[j] == Val(Stamp(env.parseStamp(cells[j].value).value)))
  {
    if |cells| == 0 then []
    else
      assert forall j :: 1 <= j < |cells| ==> cells[j] == cells[1..][j - 1];
      var head := if cells[0].Val? then Val(Stamp(env.parseStamp(cells[0].value).value)) else Na(NaT);
      [head] + ParseCells(env, cells[1..])
  }

  /**
   * Lines 156-159: when every present value parses, the column's cells become
   * timestamps, every missing cell becoming NaT, stored as `ParsedDtype`
   * says; otherwise the exception is swallowed and the column is left as it
   * was.
   */
  function ParseDatetime(env: Env, col: Column): (c: Column)
    ensures !AllParse(env, col.cells) ==> c == col
    ensures AllParse(env, col.cells) ==> c.dtype == ParsedDtype(env, col.cells) && |c.cells| == |col.cells|
    ensures AllParse(env, col.cells) ==> forall j :: 0 <= j < |col.cells| ==>
      (col.cells[j].Na? ==> c.cells[j] == Na(NaT)) &&
      (col.cells[j].Val? ==> c.cells[j] == Val(Stamp(env.parseStamp(col.cells[j].value).value)))
  {
    if AllParse(env, col.cells) then Column(ParsedDtype(env, col.cells), ParseCells(env, col.cells)) else col
  }

  /** The column as it stands after line 159. */
  function TryDatetime(env: Env, col: Column): Column {
    if MaybeTimestamps(env, col.cells) then ParseDatetime(env, col) else col
  }

  /** The column passes the timestamp guard and parses. */
  predicate ParsesAsDatetime(env: Env, col: Column) {
    MaybeTimestamps(env, col.cells) && AllParse(env, col.cells)
  }

  /** The column parses, and every value carries the same zone. */
  predicate ZoneAware(env: Env, col: Column) {
    ParsesAsDatetime(env, col) && ParsedDtype(env, col.cells).DatetimeTz?
  }

  /** The distinct-count test `d < sqrt(n)`, as `d * d < n`. */
  predicate FewDistinct(cells: seq<Cell>, n: nat) {
    DistinctCount(cells) * DistinctCount(cells) < n
  }

  /**
   * Lines 164-169: collapse to categories when the distinct count `d` has
   * `d * d < n`. With `datetimeToCategory` off, line 168 first asks numpy
   * whether the dtype is a datetime64 subtype: a zone-less timestamp column
   * is exempt, and a categorical or zone-aware dtype, which numpy cannot
   * interpret, raises TypeError.
   */
  function CollapseCategory(cfg: Config, name: string, col: Column, n: nat): (r: Result<Column, Error>)
    ensures r.Err? <==> !cfg.datetimeToCategory && (col.dtype.Categorical? || col.dtype.DatetimeTz?)
    ensures r.Err? ==> r.error == DtypeCheck(name)
    ensures r.Ok? ==> r.value == col || r.value == ToCategory(col)
    ensures r.Ok? && !col.dtype.Categorical? ==> (r.value.dtype.Categorical? <==>
      FewDistinct(col.cells, n) && (cfg.datetimeToCategory || !col.dtype.Datetime64?))
  {
    var small := FewDistinct(col.cells, n);
    if cfg.datetimeToCategory then
      if small then Ok(ToCategory(col)) else Ok(col)
    else if col.dtype.Categorical? || col.dtype.DatetimeTz? then Err(DtypeCheck(name))
    else if !col.dtype.Datetime64? && small then Ok(ToCategory(col))
    else Ok(col)
  }

  predicate IsStrCell(c: Cell) {
    c.Val? && c.value.Str?
  }

  predicate HasStr(cells: seq<Cell>) {
    exists j :: 0 <= j < |cells| && IsStrCell(cells[j])
  }

  /**
   * `all(data[c].str.contains(ch))`: a non-string or missing cell yields NaN,
   * which `all` counts as true.
   */
  predicate AllStrContain(cells: seq<Cell>, ch: char) {
    forall j :: 0 <= j < |cells| && IsStrCell(cells[j]) ==> ch in cells[j].value.s
  }

  function LeadingPercents(s: string, a: nat): (k: nat)
    requires a <= |s|
    ensures a <= k <= |s|
    ensures forall j :: a <= j < k ==> s[j] == '%'
    ensures k == |s| || s[k] != '%'
    decreases |s| - a
  {
    if a == |s| || s[a] != '%' then a else LeadingPercents(s, a + 1)
  }

  function TrailingPercents(s: string, lo: nat, b: nat): (k: nat)
    requires lo <= b <= |s|
    ensures lo <= k <= b
    ensures forall j :: k <= j < b ==> s[j] == '%'
    ensures k == lo || s[k - 1] != '%'
  {
    if b == lo || s[b - 1] != '%' then b else TrailingPercents(s, lo, b - 1)
  }

  /** `r` is `s[a..b]` and everything outside `a..b` is a '%'. */
  ghost predicate StripsTo(s: string, r: string, a: nat, b: nat) {
    && a <= b <= |s|
    && r == s[a..b]
    && (forall j :: 0 <= j < a ==> s[j] == '%')
    && (forall j :: b <= j < |s| ==> s[j] == '%')
  }

  /** `s.strip('%')`: the middle of `s` once every leading and trailing '%' is gone. */
  function StripPercent(s: string): (r: string)
    ensures |r| == 0 || (r[0] != '%' && r[|r| - 1] != '%')
    ensures exists a: nat, b: nat :: StripsTo(s, r, a, b)
  {
    var a := LeadingPercents(s, 0);
    var b := TrailingPercents(s, a, |s|);
    assert StripsTo(s, s[a..b], a, b);
    s[a..b]
  }

  /** A string cell whose stripped text `float()` accepts; every other cell converts. */
  predicate ParsesAsPercent(env: Env, c: Cell) {
    IsStrCell(c) ==> env.parseFloat(StripPercent(c.value.s)).Some?
  }

  /** What a cell becomes: a string its parsed number over 100, anything else NaN. */
  function PercentValue(env: Env, c: Cell): Cell {
    if IsStrCell(c) then
      match env.parseFloat(StripPercent(c.value.s))
      case Some(x) => Val(Num(x / 100.0))
      case None => Na(NaN)
    else Na(NaN)
  }

  function ConvertCell(env: Env, c: Cell): (r: Result<Cell, string>)
    ensures r.Ok? <==> ParsesAsPercent(env, c)
    ensures r.Ok? ==> r.value == PercentValue(env, c)
  {
    if IsStrCell(c) && env.parseFloat(StripPercent(c.value.s)).None? then Err(c.value.s)
    else Ok(PercentValue(env, c))
  }

  /**
   * Line 173: `str.strip('%').astype(np.float64) / 100` on every cell; a
   * non-string becomes NaN and an unparsable string raises.
   */
  function ConvertCells(env: Env, cells: seq<Cell>): (r: Result<seq<Cell>, string>)
    ensures r.Ok? <==> forall j :: 0 <= j < |cells| ==> ParsesAsPercent(env, cells[j])
    ensures r.Ok? ==> |r.value| == |cells|
    ensures r.Ok? ==> forall j :: 0 <= j < |cells| ==> r.value[j] == PercentValue(env, cells[j])
  {
    if |cells| == 0 then Ok([])
    else
      assert forall j :: 1 <= j < |cells| ==> cells[j] == cells[1..][j - 1];
      var head := ConvertCell(env, cells[0]);
      var rest := ConvertCells(env, cells[1..]);
      if head.Err? then Err(head.error)
      else if rest.Err? then Err(rest.error)
      else Ok([head.value] + rest.value)
  }

  /**
   * The `.str` accessor's own check, as pandas 0.25 to 1.0 make it: the type
   * `infer_dtype` gives the present values must be string, empty or mixed,
   * so a column whose present values are all numbers ("integer", "floating")
   * or all timestamps ("datetime") is refused.
   */
  predicate StrAccessorRefuses(vs: seq<Value>) {
    && |vs| > 0
    && ((forall j :: 0 <= j < |vs| ==> vs[j].Num?) || (forall j :: 0 <= j < |vs| ==> vs[j].Stamp?))
  }

  /** A column with a string cell always passes the accessor's check. */
  lemma StrAccessorTakesStrings(cells: seq<Cell>)
    requires HasStr(cells)
    ensures !StrAccessorRefuses(Present(cells))
  {
    var j :| 0 <= j < |cells| && IsStrCell(cells[j]);
    var vs := Present(cells);
    assert cells[j].value in vs;
    var t :| 0 <= t < |vs| && vs[t] == cells[j].value;
    assert !vs[t].Num? && !vs[t].Stamp?;
  }

  /**
   * Lines 172-173: an object column the `.str` accessor refuses raises; one
   * whose every string holds a '%' is converted to fractions; any other is
   * left alone.
   */
  function ConvertPercent(env: Env, name: string, col: Column): (r: Result<Column, Error>)
    ensures !col.dtype.Object? ==> r == Ok(col)
    ensures r.Err? ==> col.dtype.Object?
    ensures r == Err(StrAccessor(name)) <==> col.dtype.Object? && StrAccessorRefuses(Present(col.cells))
    ensures r.Ok? && r.value != col <==>
      && col.dtype.Object? && !StrAccessorRefuses(Present(col.cells)) && AllStrContain(col.cells, '%')
      && forall j :: 0 <= j < |col.cells| ==> ParsesAsPercent(env, col.cells[j])
    ensures r.Ok? && r.value != col ==>
      && r.value.dtype == Numeric && |r.value.cells| == |col.cells|
      && forall j :: 0 <= j < |col.cells| ==> r.value.cells[j] == PercentValue(env, col.cells[j])
  {
    if !col.dtype.Object? then Ok(col)
    else if StrAccessorRefuses(Present(col.cells)) then Err(StrAccessor(name))
    else if !AllStrContain(col.cells, '%') then Ok(col)
    else
      match ConvertCells(env, col.cells)
      case Ok(cs) => Ok(Column(Numeric, cs))
      case Err(s) => Err(FloatParse(name, s))
  }

  function CharsOf(s: string): set<char> {
    set c | c in s
  }

  predicate IsNonEmptyStr(c: Cell) {
    c.Val? && c.value.Str? && |c.value.s| > 0
  }

  /**
   * Lines 188-191: the characters of `first` that occur in every non-empty
   * string cell.
   */
  function CommonChars(first: string, cells: seq<Cell>): (k: set<char>)
    ensures forall ch :: ch in k <==>
      ch in first && forall j :: 0 <= j < |cells| && IsNonEmptyStr(cells[j]) ==> ch in cells[j].value.s
  {
    if |cells| == 0 then CharsOf(first)
    else
      var init := cells[..|cells| - 1];
      var k := CommonChars(first, init);
      assert forall j :: 0 <= j < |init| ==> init[j] == cells[j];
      if IsNonEmptyStr(cells[|cells| - 1]) then k * CharsOf(cells[|cells| - 1].value.s) else k
  }

  /** Neither categorical nor timestamp storage. */
  predicate Plain(col: Column) {
    !col.dtype.Categorical? && !col.dtype.Datetime64? && !col.dtype.DatetimeTz?
  }

  /** The structured-text test applies (line 183). */
  predicate StructureCandidate(cfg: Config, col: Column, lens: seq<nat>) {
    Plain(col) && cfg.structureTextDetection && EqualLengths(lens)
  }

  /**
   * Lines 175-201: the variable type of the rewritten column. The numpy test
   * of line 180 raises TypeError on a zone-aware column.
   */
  function Resolve(cfg: Config, name: string, col: Column, lens: seq<nat>): (r: Result<Detected, Error>)
    ensures r.Ok? ==> r.value.name == name
    ensures r.Ok? && r.value.vtype == Category <==> col.dtype.Categorical?
    ensures r.Ok? && r.value.vtype == Datetime <==> col.dtype.Datetime64?
    ensures r.Ok? && r.value.vtype == TextSt <==>
      StructureCandidate(cfg, col, lens) && |Present(col.cells)| > 0 && Present(col.cells)[0].Str? &&
      CommonChars(Present(col.cells)[0].s, col.cells) != {}
    ensures r.Ok? && r.value.vtype == Number <==>
      Plain(col) && !StructureCandidate(cfg, col, lens) && col.dtype.Numeric?
    ensures r.Err? <==> (StructureCandidate(cfg, col, lens) && |Present(col.cells)| == 0) || col.dtype.DatetimeTz?
    ensures r.Err? ==> r.error == if col.dtype.DatetimeTz? then DtypeCheck(name) else NoFirstValue(name)
    ensures r.Ok? ==> r.value.vtype != GroupNumber
    ensures r.Ok? && r.value.vtype == Category ==>
      r.value.ordered == col.dtype.ordered && r.value.categories == col.dtype.cats
    ensures r.Ok? && r.value.vtype != Category ==> !r.value.ordered && r.value.categories == []
  {
    match col.dtype
    case Categorical(o, cats) => Ok(Detected(name, Category, o, cats))
    case Datetime64 => Ok(Detected(name, Datetime, false, []))
    case DatetimeTz(_) => Err(DtypeCheck(name))
    case _ =>
      if cfg.structureTextDetection && EqualLengths(lens) then
        var vs := Present(col.cells);
        if |vs| == 0 then Err(NoFirstValue(name))
        else if !vs[0].Str? then Ok(Detected(name, Text, false, []))
        else if CommonChars(vs[0].s, col.cells) != {} then Ok(Detected(name, TextSt, false, []))
        else Ok(Detected(name, Text, false, []))
      else if col.dtype.Numeric? then Ok(Detected(name, Number, false, []))
      else Ok(Detected(name, Text, false, []))
  }

  /** The string branch of `dtype_detection` (lines 151-202). */
  function ClassifyText(env: Env, cfg: Config, name: string, col: Column): (r: Result<(Detected, Column), Error>)
    requires col.dtype.Object? || col.dtype.Categorical?
    ensures r.Ok? ==> r.value.0.name == name && r.value.0.vtype != GroupNumber
    ensures r.Ok? ==> |r.value.1.cells| == |col.cells|
    ensures r.Ok? ==> (r.value.0.vtype == Category <==> r.value.1.dtype.Categorical?)
    ensures r.Ok? && r.value.0.vtype == Category ==>
      r.value.0.ordered == r.value.1.dtype.ordered && r.value.0.categories == r.value.1.dtype.cats
    ensures r.Ok? && r.value.0.vtype != Category ==> !r.value.0.ordered && r.value.0.categories == []
    ensures r.Ok? && r.value.0.vtype == Category && !col.dtype.Categorical? ==> |r.value.0.categories| >= 1
  {
    var c1 := TryDatetime(env, col);
    assert Count(c1.cells) == Count(col.cells) by {
      if c1 != col {
        SameShapeSameCount(c1.cells, col.cells);
      }
    }
    FromParsed(env, cfg, name, c1, Count(col.cells), Lengths(env, col.cells))
  }

  /**
   * Lines 163-201 on the column `c1` as line 159 leaves it, with `n` the
   * count and `lens` the lengths taken before the parse.
   */
  function FromParsed(env: Env, cfg: Config, name: string, c1: Column, n: nat, lens: seq<nat>)
    : (r: Result<(Detected, Column), Error>)
    requires n == Count(c1.cells)
    ensures r.Ok? ==> r.value.0.name == name && r.value.0.vtype != GroupNumber
    ensures r.Ok? ==> |r.value.1.cells| == |c1.cells|
    ensures r.Ok? ==> (r.value.0.vtype == Category <==> r.value.1.dtype.Categorical?)
    ensures r.Ok? && r.value.0.vtype == Category ==>
      r.value.0.ordered == r.value.1.dtype.ordered && r.value.0.categories == r.value.1.dtype.cats
    ensures r.Ok? && r.value.0.vtype != Category ==> !r.value.0.ordered && r.value.0.categories == []
    ensures r.Ok? && r.value.0.vtype == Category && !c1.dtype.Categorical? ==> |r.value.0.categories| >= 1
  {
    DistinctCountBounds(c1.cells);
    var c2 :- CollapseCategory(cfg, name, c1, n);
    var c3 :- ConvertPercent(env, name, c2);
    var det :- Resolve(cfg, name, c3, lens);
    Ok((det, c3))
  }

  /**
   * Where lines 163-201 raise the numpy TypeError: at line 168 for a
   * categorical or zone-aware column with the collapse off, and at line 180
   * for a zone-aware column the collapse left alone.
   */
  lemma FromParsedDtypeCheck(env: Env, cfg: Config, name: string, c1: Column, n: nat, lens: seq<nat>)
    requires n == Count(c1.cells)
    ensures FromParsed(env, cfg, name, c1, n, lens) == Err(DtypeCheck(name)) <==>
      || (c1.dtype.Categorical? && !cfg.datetimeToCategory)
      || (c1.dtype.DatetimeTz? && !(cfg.datetimeToCategory && FewDistinct(c1.cells, n)))
  {
    var c2 := CollapseCategory(cfg, name, c1, n);
    if c2.Ok? {
      var c3 := ConvertPercent(env, name, c2.value);
      if c3.Ok? {
        assert c3.value.dtype.DatetimeTz? <==> c2.value.dtype.DatetimeTz?;
      }
    }
  }

  /**
   * Lines 163-178 on a column that is not categorical: it is reported as a
   * category exactly when the distinct-count test collapses it, with the
   * categories `astype('category')` gives it.
   */
  lemma FromParsedCategory(env: Env, cfg: Config, name: string, c1: Column, n: nat, lens: seq<nat>)
    requires n == Count(c1.cells) && !c1.dtype.Categorical?
    ensures var r := FromParsed(env, cfg, name, c1, n, lens);
      r.Ok? && r.value.0.vtype == Category <==>
        FewDistinct(c1.cells, n) && (cfg.datetimeToCategory || (!c1.dtype.Datetime64? && !c1.dtype.DatetimeTz?))
    ensures var r := FromParsed(env, cfg, name, c1, n, lens);
      r.Ok? && r.value.0.vtype == Category ==> r.value.1 == ToCategory(c1)
  {
  }

  /**
   * Line 159 leaves a categorical column categorical exactly when it does not
   * parse as timestamps, and leaves an object column only when the parsed
   * zones disagree.
   */
  lemma TryDatetimeKind(env: Env, col: Column)
    ensures TryDatetime(env, col).dtype.Categorical? <==> col.dtype.Categorical? && !ParsesAsDatetime(env, col)
    ensures TryDatetime(env, col).dtype.Object? ==>
      col.dtype.Object? || (ParsesAsDatetime(env, col) && ParsedDtype(env, col.cells) == Object)
    ensures TryDatetime(env, col).dtype.DatetimeTz? <==> ZoneAware(env, col) || (col.dtype.DatetimeTz? && !ParsesAsDatetime(env, col))
  {
  }

  /**
   * The TypeError of lines 168 and 180: the string branch raises it for a
   * categorical column that line 157 did not turn into timestamps when the
   * datetime collapse is off, and for a column that line 157 turned into
   * zone-aware timestamps unless the collapse is on and makes it categorical.
   */
  lemma DtypeCheckIff(env: Env, cfg: Config, name: string, col: Column)
    requires col.dtype.Object? || col.dtype.Categorical?
    ensures ClassifyText(env, cfg, name, col) == Err(DtypeCheck(name)) <==>
      || (col.dtype.Categorical? && !cfg.datetimeToCategory && !ParsesAsDatetime(env, col))
      || (ZoneAware(env, col) && !(cfg.datetimeToCategory && FewDistinct(TryDatetime(env, col).cells, Count(col.cells))))
  {
    TryDatetimeKind(env, col);
    var c1 := TryDatetime(env, col);
    assert Count(c1.cells) == Count(col.cells) by {
      if c1 != col {
        SameShapeSameCount(c1.cells, col.cells);
      }
    }
    FromParsedDtypeCheck(env, cfg, name, c1, Count(col.cells), Lengths(env, col.cells));
  }

  /** With the datetime collapse on, a categorical column that does not parse never raises. */
  lemma CollapseKeepsCategorical(env: Env, cfg: Config, name: string, col: Column)
    requires col.dtype.Categorical?
    ensures cfg.datetimeToCategory && !ParsesAsDatetime(env, col) ==> ClassifyText(env, cfg, name, col).Ok?
  {
    if cfg.datetimeToCategory && !ParsesAsDatetime(env, col) {
      assert TryDatetime(env, col) == col;
      assert CollapseCategory(cfg, name, col, Count(col.cells)) == Ok(col);
    }
  }

  /** The distinct-count test of lines 164-169, on the column as line 159 leaves it. */
  predicate CollapsesToCategory(env: Env, cfg: Config, col: Column) {
    var c1 := TryDatetime(env, col);
    && FewDistinct(c1.cells, Count(col.cells))
    && (cfg.datetimeToCategory || (!c1.dtype.Datetime64? && !c1.dtype.DatetimeTz?))
  }

  /**
   * An object column is reported as a category exactly when the
   * distinct-count test collapses it, and then the call succeeds with the
   * column's distinct values as categories, unordered.
   */
  lemma ObjectCategoryIff(env: Env, cfg: Config, name: string, col: Column)
    requires col.dtype.Object?
    ensures var r := ClassifyText(env, cfg, name, col);
      CollapsesToCategory(env, cfg, col) ==>
        && r.Ok? && r.value.0.vtype == Category && !r.value.0.ordered
        && forall v :: v in r.value.0.categories <==> Val(v) in TryDatetime(env, col).cells
    ensures var r := ClassifyText(env, cfg, name, col);
      r.Ok? && r.value.0.vtype == Category ==> CollapsesToCategory(env, cfg, col)
  {
    var c1 := TryDatetime(env, col);
    assert c1.dtype.Object? || c1.dtype.Datetime64? || c1.dtype.DatetimeTz?;
    if c1 != col {
      SameShapeSameCount(c1.cells, col.cells);
    }
    FromParsedCategory(env, cfg, name, c1, Count(col.cells), Lengths(env, col.cells));
  }

  /**
   * A column of timestamp strings that parse, with `datetime_to_category` off
   * (as `type_of_var` calls it): zone-less timestamps are reported as a
   * datetime whatever their number of distinct values, and zone-aware ones
   * make line 168 raise.
   */
  lemma ParsedTimestampsAreDatetime(env: Env, name: string, col: Column)
    requires col.dtype.Object? && ParsesAsDatetime(env, col)
    ensures var r := ClassifyText(env, TypeConfig, name, col);
      ParsedDtype(env, col.cells) == Datetime64 ==>
        r.Ok? && r.value.0.vtype == Datetime && r.value.1.dtype == Datetime64
    ensures var r := ClassifyText(env, TypeConfig, name, col);
      ParsedDtype(env, col.cells).DatetimeTz? ==> r == Err(DtypeCheck(name))
  {
  }

  /** Parsed cells hold timestamps only, as many as the column had values. */
  lemma ParsedAreStamps(env: Env, cells: seq<Cell>)
    requires AllParse(env, cells)
    ensures forall v :: v in Present(ParseCells(env, cells)) ==> v.Stamp?
    ensures Count(ParseCells(env, cells)) == Count(cells)
  {
    var cs := ParseCells(env, cells);
    forall v | v in Present(cs) ensures v.Stamp? {
      var t :| 0 <= t < |cs| && cs[t] == Val(v);
    }
    SameShapeSameCount(cs, cells);
  }

  /**
   * Timestamp strings whose zones disagree parse to an object column of
   * timestamps: the collapse may make it a category, and otherwise the
   * `.str` accessor of line 172 refuses it and raises.
   */
  lemma MixedZones(env: Env, cfg: Config, name: string, col: Column)
    requires col.dtype.Object? && ParsesAsDatetime(env, col) && ParsedDtype(env, col.cells) == Object
    ensures var r := ClassifyText(env, cfg, name, col);
      && (r.Ok? <==> FewDistinct(TryDatetime(env, col).cells, Count(col.cells)))
      && (r.Ok? ==> r.value.0.vtype == Category)
      && (r.Err? ==> r.error == StrAccessor(name))
  {
    if FewDistinct(TryDatetime(env, col).cells, Count(col.cells)) {
      MixedCollapsed(env, cfg, name, col);
    } else {
      MixedRaises(env, cfg, name, col);
    }
  }

  /** Timestamps with disagreeing zones and few distinct values collapse to a category. */
  lemma MixedCollapsed(env: Env, cfg: Config, name: string, col: Column)
    requires col.dtype.Object? && ParsesAsDatetime(env, col) && ParsedDtype(env, col.cells) == Object
    requires FewDistinct(TryDatetime(env, col).cells, Count(col.cells))
    ensures var r := ClassifyText(env, cfg, name, col); r.Ok? && r.value.0.vtype == Category
  {
    var c1 := TryDatetime(env, col);
    var c2 := ToCategory(c1);
    assert CollapseCategory(cfg, name, c1, Count(col.cells)) == Ok(c2);
    assert ConvertPercent(env, name, c2) == Ok(c2);
  }

  /** Timestamps with disagreeing zones and many distinct values reach the `.str` accessor, which raises. */
  lemma MixedRaises(env: Env, cfg: Config, name: string, col: Column)
    requires col.dtype.Object? && ParsesAsDatetime(env, col) && ParsedDtype(env, col.cells) == Object
    requires !FewDistinct(TryDatetime(env, col).cells, Count(col.cells))
    ensures ClassifyText(env, cfg, name, col) == Err(StrAccessor(name))
  {
    var c1 := TryDatetime(env, col);
    MixedRefused(env, col.cells);
    assert c1 == Column(Object, ParseCells(env, col.cells));
    assert CollapseCategory(cfg, name, c1, Count(col.cells)) == Ok(c1);
    assert ConvertPercent(env, name, c1) == Err(StrAccessor(name));
  }

  /** Parsed values whose zones disagree are all timestamps, and there is one at least. */
  lemma MixedRefused(env: Env, cells: seq<Cell>)
    requires AllParse(env, cells) && ParsedDtype(env, cells) == Object
    ensures StrAccessorRefuses(Present(ParseCells(env, cells)))
  {
    ParsedAreStamps(env, cells);
    var v, w :| Val(v) in cells && Val(w) in cells && env.zoneOf(v) != env.zoneOf(w);
    assert v in Present(cells);
    assert |Present(cells)| > 0;
    var vs := Present(ParseCells(env, cells));
    assert |vs| > 0;
    forall j | 0 <= j < |vs| ensures vs[j].Stamp? {
      assert vs[j] in vs;
    }
  }

  /**
   * An object column that stays a string column and whose strings all carry
   * a '%' that `float()` accepts once stripped becomes numeric; it is then
   * reported as a number, unless its original renderings all have one length,
   * in which case the structured-text test sees a number first and reports
   * text.
   */
  lemma PercentColumn(env: Env, cfg: Config, name: string, col: Column, k: nat)
    requires k < |col.cells| && IsStrCell(col.cells[k]) && AllStrContain(col.cells, '%')
    requires forall j :: 0 <= j < |col.cells| ==> ParsesAsPercent(env, col.cells[j])
    requires col.dtype.Object? && !ParsesAsDatetime(env, col)
    requires DistinctCount(col.cells) * DistinctCount(col.cells) >= Count(col.cells)
    ensures var r := ClassifyText(env, cfg, name, col);
      && r.Ok? && r.value.1.dtype == Numeric
      && (r.value.0.vtype == Number <==> !(cfg.structureTextDetection && EqualLengths(Lengths(env, col.cells))))
      && (r.value.0.vtype == Number || r.value.0.vtype == Text)
  {
    var c3 := PercentConverted(env, name, col, k);
    var lens := Lengths(env, col.cells);
    var n := Count(col.cells);
    assert TryDatetime(env, col) == col;
    assert ClassifyText(env, cfg, name, col) == FromParsed(env, cfg, name, col, n, lens);
    assert CollapseCategory(cfg, name, col, n) == Ok(col);
    var det := NumbersResolve(cfg, name, c3, lens);
    assert FromParsed(env, cfg, name, col, n, lens) == Ok((det, c3));
  }

  /** Lines 172-173 on a column of percent strings: the fractions, all numbers, at least one. */
  lemma PercentConverted(env: Env, name: string, col: Column, k: nat) returns (c3: Column)
    requires k < |col.cells| && IsStrCell(col.cells[k]) && AllStrContain(col.cells, '%')
    requires forall j :: 0 <= j < |col.cells| ==> ParsesAsPercent(env, col.cells[j])
    requires col.dtype.Object?
    ensures ConvertPercent(env, name, col) == Ok(c3)
    ensures c3.dtype == Numeric && |c3.cells| == |col.cells|
    ensures |Present(c3.cells)| > 0 && forall v :: v in Present(c3.cells) ==> v.Num?
  {
    assert HasStr(col.cells);
    ConvertedAreNumbers(env, col.cells);
    c3 := Column(Numeric, ConvertCells(env, col.cells).value);
    StrAccessorTakesStrings(col.cells);
  }

  /** Lines 175-201 on a numeric column with a value: `number`, or `text` under the structured-text test. */
  lemma NumbersResolve(cfg: Config, name: string, c3: Column, lens: seq<nat>) returns (d: Detected)
    requires c3.dtype == Numeric
    requires |Present(c3.cells)| > 0 && forall v :: v in Present(c3.cells) ==> v.Num?
    ensures Resolve(cfg, name, c3, lens) == Ok(d)
    ensures d.vtype == Number <==> !(cfg.structureTextDetection && EqualLengths(lens))
    ensures d.vtype == Number || d.vtype == Text
  {
    assert Present(c3.cells)[0] in Present(c3.cells);
    d := Resolve(cfg, name, c3, lens).value;
  }

  /** `"5%"` strips to `"5"`, and `"12%"` to `"12"`. */
  lemma StripExamples()
    ensures StripPercent("5%") == "5" && StripPercent("12%") == "12"
  {
    assert LeadingPercents("5%", 0) == 0;
    assert TrailingPercents("5%", 0, 1) == 1;
    assert LeadingPercents("12%", 0) == 0;
    assert TrailingPercents("12%", 0, 2) == 2;
  }

  /** The renderings of `"5%"` and `"12%"` have lengths 2 and 3: no timestamps, and not one length. */
  lemma PercentExampleLengths(env: Env)
    ensures var cells := [Val(Str("5%")), Val(Str("12%"))];
      && !MaybeTimestamps(env, cells)
      && !EqualLengths(Lengths(env, cells))
  {
    var cells := [Val(Str("5%")), Val(Str("12%"))];
    assert cells[1..] == [Val(Str("12%"))] && cells[1..][1..] == [];
    var lens := Lengths(env, cells);
    assert Lengths(env, cells[1..]) == [3];
    assert lens == [2, 3];
    assert MaxOf(lens) == 3;
  }

  /** `"5%"` and `"12%"` are two distinct strings with a '%' that parse once stripped. */
  lemma PercentExampleValues(env: Env)
    requires env.parseFloat("5").Some? && env.parseFloat("12").Some?
    ensures var cells := [Val(Str("5%")), Val(Str("12%"))];
      && DistinctCount(cells) * DistinctCount(cells) >= Count(cells)
      && HasStr(cells) && AllStrContain(cells, '%')
      && forall j :: 0 <= j < |cells| ==> ParsesAsPercent(env, cells[j])
  {
    var cells := [Val(Str("5%")), Val(Str("12%"))];
    StripExamples();
    assert cells[1..] == [Val(Str("12%"))] && cells[1..][1..] == [];
    assert |"5%"| != |"12%"|;
    TwoValues(Str("5%"), Str("12%"));
    assert IsStrCell(cells[0]);
  }

  /**
   * `["5%", "12%"]`, when `float()` reads "5" and "12", meets every premise of
   * `PercentColumn` and is reported as a number.
   */
  lemma PercentColumnExample(env: Env, cfg: Config, name: string)
    requires env.parseFloat("5").Some? && env.parseFloat("12").Some?
    ensures var r := ClassifyText(env, cfg, name, Column(Object, [Val(Str("5%")), Val(Str("12%"))]));
      r.Ok? && r.value.0.vtype == Number && r.value.1.dtype == Numeric
  {
    PercentExampleLengths(env);
    PercentExampleValues(env);
    PercentColumn(env, cfg, name, Column(Object, [Val(Str("5%")), Val(Str("12%"))]), 0);
  }

  /** Converted cells hold numbers only, and at least one when a string was converted. */
  lemma ConvertedAreNumbers(env: Env, cells: seq<Cell>)
    requires forall j :: 0 <= j < |cells| ==> ParsesAsPercent(env, cells[j])
    ensures var cs := ConvertCells(env, cells).value;
      && (forall v :: v in Present(cs) ==> v.Num?)
      && (HasStr(cells) ==> |Present(cs)| > 0)
  {
    var cs := ConvertCells(env, cells).value;
    forall v | v in Present(cs) ensures v.Num? {
      var t :| 0 <= t < |cs| && cs[t] == Val(v);
      assert cs[t] == PercentValue(env, cells[t]);
    }
    if HasStr(cells) {
      var j :| 0 <= j < |cells| && IsStrCell(cells[j]);
      assert cs[j].Val?;
      assert cs[j].value in Present(cs);
    }
  }

  /** Missing cells count by their rendering: None as 4, NaT as 3, and NaN not at all. */
  lemma MissingLengths(env: Env)
    ensures Lengths(env, [Na(NoneObj), Na(NaT), Na(NaN)]) == [4, 3]
  {
    assert Lengths(env, [Na(NaN)]) == [];
    assert Lengths(env, [Na(NaT), Na(NaN)]) == [3] by {
      assert [Na(NaT), Na(NaN)][1..] == [Na(NaN)];
    }
    assert [Na(NoneObj), Na(NaT), Na(NaN)][1..] == [Na(NaT), Na(NaN)];
  }

  /** Two None cells: lengths 4 and 4, no value, and the percent conversion makes them NaN. */
  lemma TwoNoneCells(env: Env, name: string)
    ensures var cells := [Na(NoneObj), Na(NoneObj)];
      && Lengths(env, cells) == [4, 4]
      && !MaybeTimestamps(env, cells)
      && Present(cells) == [] && DistinctCount(cells) == 0
      && ConvertPercent(env, name, Column(Object, cells)) == Ok(Column(Numeric, [Na(NaN), Na(NaN)]))
      && Present([Na(NaN), Na(NaN)]) == []
  {
    var cells := [Na(NoneObj), Na(NoneObj)];
    assert cells[1..] == [Na(NoneObj)];
    assert cells[1..][1..] == [];
    assert Lengths(env, cells[1..]) == [4];
    assert MaxOf([4, 4]) == 4;
    assert !IsStrCell(cells[0]) && !IsStrCell(cells[1]);
    var r := ConvertCells(env, cells);
    assert r.Ok? && |r.value| == 2 && r.value[0] == Na(NaN) && r.value[1] == Na(NaN);
    assert r.value == [Na(NaN), Na(NaN)];
    var cs := [Na(NaN), Na(NaN)];
    assert cs[1..] == [Na(NaN)] && cs[1..][1..] == [];
  }

  /** An object column that neither parses nor collapses goes straight to lines 172-201. */
  lemma ClassifyTextUncollapsed(env: Env, cfg: Config, name: string, col: Column, c3: Column)
    requires col.dtype.Object? && TryDatetime(env, col) == col
    requires CollapseCategory(cfg, name, col, Count(col.cells)) == Ok(col)
    requires ConvertPercent(env, name, col) == Ok(c3)
    ensures var d := Resolve(cfg, name, c3, Lengths(env, col.cells));
      ClassifyText(env, cfg, name, col) == if d.Ok? then Ok((d.value, c3)) else Err(d.error)
  {
  }

  /**
   * A column of two None cells has lengths 4 and 4, so under the
   * structured-text test it reaches `iloc[0]` with no value and raises.
   */
  lemma NoneColumnRaises(env: Env, cfg: Config, name: string)
    requires cfg.structureTextDetection
    ensures ClassifyText(env, cfg, name, Column(Object, [Na(NoneObj), Na(NoneObj)])) == Err(NoFirstValue(name))
  {
    var col := Column(Object, [Na(NoneObj), Na(NoneObj)]);
    TwoNoneCells(env, name);
    ClassifyTextUncollapsed(env, cfg, name, col, Column(Numeric, [Na(NaN), Na(NaN)]));
  }

  /** The renderings of two timestamp strings around a None: lengths 16, 4, 16, far from constant. */
  lemma StampsAroundNone(env: Env, cfg: Config, name: string, a: Value, b: Value)
    requires a == Str("2017-01-01 00:00") && b == Str("2017-01-02 00:00")
    ensures var lens := Lengths(env, [Val(a), Na(NoneObj), Val(b)]);
      lens == [16, 4, 16] && !LowSpread(lens) && !EqualLengths(lens)
    ensures !MaybeTimestamps(env, [Val(a), Na(NoneObj), Val(b)])
    ensures var col := Column(Object, [Val(a), Na(NoneObj), Val(b)]);
      Resolve(cfg, name, col, Lengths(env, col.cells)) == Ok(Detected(name, Text, false, []))
  {
    var cells := [Val(a), Na(NoneObj), Val(b)];
    assert cells[1..] == [Na(NoneObj), Val(b)];
    assert cells[1..][1..] == [Val(b)];
    assert cells[1..][1..][1..] == [];
    assert |a.s| == 16 && |b.s| == 16;
    var lens := Lengths(env, cells);
    assert Lengths(env, cells[1..][1..]) == [16];
    assert Lengths(env, cells[1..]) == [4, 16];
    assert lens[1..] == [4, 16] && lens[1..][1..] == [16] && lens[1..][1..][1..] == [];
    assert SumLen(lens[1..][1..]) == 16 && SumSq(lens[1..][1..]) == 256;
    assert SumLen(lens[1..]) == 20 && SumSq(lens[1..]) == 272;
    assert lens[1] != lens[0];
  }

  /** Two distinct strings around a None: two distinct values, and no '%' to convert. */
  lemma TwoStringsAroundNone(env: Env, cfg: Config, name: string, a: Value, b: Value)
    requires a == Str("2017-01-01 00:00") && b == Str("2017-01-02 00:00")
    ensures var col := Column(Object, [Val(a), Na(NoneObj), Val(b)]);
      && Count(col.cells) == 2 && DistinctCount(col.cells) == 2
      && CollapseCategory(cfg, name, col, Count(col.cells)) == Ok(col)
      && ConvertPercent(env, name, col) == Ok(col)
  {
    var cells := [Val(a), Na(NoneObj), Val(b)];
    assert cells[1..] == [Na(NoneObj), Val(b)];
    assert cells[1..][1..] == [Val(b)];
    assert Present(cells) == [a, b];
    assert [a, b][..1] == [a];
    assert DistinctValues(cells) == [a, b];
    assert IsStrCell(cells[0]) && '%' !in a.s;
    StrAccessorTakesStrings(cells);
  }

  /**
   * A None between two timestamp strings gives lengths 16, 4, 16: the
   * near-constant-length guard fails, nothing is parsed, and the column is text.
   */
  lemma NoneBlocksTimestamps(env: Env, cfg: Config, name: string)
    ensures var col := Column(Object, [Val(Str("2017-01-01 00:00")), Na(NoneObj), Val(Str("2017-01-02 00:00"))]);
      && !MaybeTimestamps(env, col.cells)
      && ClassifyText(env, cfg, name, col) == Ok((Detected(name, Text, false, []), col))
  {
    var a, b := Str("2017-01-01 00:00"), Str("2017-01-02 00:00");
    var col := Column(Object, [Val(a), Na(NoneObj), Val(b)]);
    StampsAroundNone(env, cfg, name, a, b);
    TwoStringsAroundNone(env, cfg, name, a, b);
    ClassifyTextUncollapsed(env, cfg, name, col, col);
  }

  /** Two UTC timestamp strings have lengths 17 and 17: no numbers, and they pass the guard. */
  lemma UtcLengths(env: Env, a: Value, b: Value)
    requires a == Str("2017-01-01T00:00Z") && b == Str("2017-01-02T00:00Z")
    ensures MaybeTimestamps(env, [Val(a), Val(b)]) && Present([Val(a), Val(b)]) == [a, b]
  {
    var cells := [Val(a), Val(b)];
    assert cells[1..] == [Val(b)] && cells[1..][1..] == [];
    assert |a.s| == 17 && |b.s| == 17;
    var lens := Lengths(env, cells);
    assert Lengths(env, cells[1..]) == [17];
    assert lens == [17, 17];
    assert MaxOf(lens) == 17;
    EqualLengthsHaveLowSpread(lens);
    assert Present(cells) == [a, b];
    assert !HasNumber(Present(cells));
  }

  /** Two cells holding two different values: both count, and both are distinct. */
  lemma TwoValues(a: Value, b: Value)
    requires a != b
    ensures Count([Val(a), Val(b)]) == 2 && DistinctCount([Val(a), Val(b)]) == 2
  {
    var cs := [Val(a), Val(b)];
    assert cs[1..] == [Val(b)] && cs[1..][1..] == [];
    assert Present(cs) == [a, b];
    assert [a, b][..1] == [a];
    assert DistinctValues(cs) == [a, b];
  }

  /** Two values that parse and carry the same zone parse to zone-aware storage. */
  lemma TwoZonedParse(env: Env, a: Value, b: Value, z: int)
    requires env.parseStamp(a).Some? && env.parseStamp(b).Some?
    requires env.zoneOf(a) == Some(z) && env.zoneOf(b) == Some(z)
    ensures AllParse(env, [Val(a), Val(b)]) && ParsedDtype(env, [Val(a), Val(b)]) == DatetimeTz(z)
    ensures Count([Val(a), Val(b)]) == 2
    ensures ParseCells(env, [Val(a), Val(b)]) == [Val(Stamp(env.parseStamp(a).value)), Val(Stamp(env.parseStamp(b).value))]
  {
    var cells := [Val(a), Val(b)];
    assert cells[1..] == [Val(b)] && cells[1..][1..] == [];
    assert Present(cells) == [a, b];
    var cs := ParseCells(env, cells);
    assert cs[0] == Val(Stamp(env.parseStamp(a).value)) && cs[1] == Val(Stamp(env.parseStamp(b).value));
  }

  /** Two UTC timestamp strings at distinct instants parse to two zone-aware values at offset 0. */
  lemma UtcStampFacts(env: Env, a: Value, b: Value)
    requires a == Str("2017-01-01T00:00Z") && b == Str("2017-01-02T00:00Z")
    requires env.parseStamp(a).Some? && env.parseStamp(b).Some? && env.parseStamp(a) != env.parseStamp(b)
    requires env.zoneOf(a) == Some(0) && env.zoneOf(b) == Some(0)
    ensures var col := Column(Object, [Val(a), Val(b)]);
      && ZoneAware(env, col) && ParsedDtype(env, col.cells) == DatetimeTz(0) && Count(col.cells) == 2
      && DistinctCount(TryDatetime(env, col).cells) == 2
  {
    UtcLengths(env, a, b);
    TwoZonedParse(env, a, b, 0);
    TwoValues(Stamp(env.parseStamp(a).value), Stamp(env.parseStamp(b).value));
  }

  /**
   * A `None` between two timestamp strings counts 4 in an object column; once
   * the column is cast to categories it is stored as NaN, so a later pass
   * over the column skips it.
   */
  lemma CollapsedNoneSkipped(env: Env)
    ensures var col := Column(Object, [Val(Str("2017-01-01 00:00")), Na(NoneObj), Val(Str("2017-01-01 00:00"))]);
      && Lengths(env, col.cells) == [16, 4, 16]
      && Lengths(env, ToCategory(col).cells) == [16, 16]
      && MaybeTimestamps(env, ToCategory(col).cells)
  {
    var a := Val(Str("2017-01-01 00:00"));
    var col := Column(Object, [a, Na(NoneObj), a]);
    assert Lengths(env, [a]) == [16] by {
      assert |Show(env, a)| == 16;
      LengthsOne(env, a);
    }
    assert Lengths(env, col.cells) == [16, 4, 16] by {
      assert |Show(env, Na(NoneObj))| == 4;
      LengthsOne(env, Na(NoneObj));
      LengthsOfThree(env, a, Na(NoneObj), a);
    }
    assert ToCategory(col).cells == [a, Na(NaN), a];
    assert Lengths(env, [a, Na(NaN), a]) == [16, 16] by {
      LengthsOne(env, Na(NaN));
      LengthsOfThree(env, a, Na(NaN), a);
    }
    SameLengthsPassGuard(env, [a, Na(NaN), a], a.value);
  }

  /** Cells holding one string twice, with lengths 16 and 16, pass the timestamp guard of line 155. */
  lemma SameLengthsPassGuard(env: Env, cells: seq<Cell>, v: Value)
    requires v.Str? && cells == [Val(v), Na(NaN), Val(v)] && Lengths(env, cells) == [16, 16]
    ensures MaybeTimestamps(env, cells)
  {
    var lens: seq<nat> := [16, 16];
    assert MaxOf(lens) == 16;
    EqualLengthsHaveLowSpread(lens);
    assert cells[1..] == [Na(NaN), Val(v)] && cells[1..][1..] == [Val(v)] && cells[1..][1..][1..] == [];
    assert Present(cells) == [v, v];
    assert !HasNumber(Present(cells));
  }

  /** The lengths of three cells, one cell at a time. */
  lemma LengthsOfThree(env: Env, x: Cell, y: Cell, z: Cell)
    ensures Lengths(env, [x, y, z]) == Lengths(env, [x]) + Lengths(env, [y]) + Lengths(env, [z])
  {
    assert [x] + [y, z] == [x, y, z] && [y] + [z] == [y, z];
    LengthsConcat(env, [x], [y, z]);
    LengthsConcat(env, [y], [z]);
  }

  /**
   * `["2017-01-01T00:00Z", "2017-01-02T00:00Z"]` parses to zone-aware
   * timestamps: with the datetime collapse off line 168 raises, and with it
   * on the two distinct values do not collapse, so line 180 raises.
   */
  lemma ZonedColumnRaises(env: Env, name: string)
    requires env.parseStamp(Str("2017-01-01T00:00Z")).Some? && env.parseStamp(Str("2017-01-02T00:00Z")).Some?
    requires env.parseStamp(Str("2017-01-01T00:00Z")) != env.parseStamp(Str("2017-01-02T00:00Z"))
    requires env.zoneOf(Str("2017-01-01T00:00Z")) == Some(0) && env.zoneOf(Str("2017-01-02T00:00Z")) == Some(0)
    ensures var col := Column(Object, [Val(Str("2017-01-01T00:00Z")), Val(Str("2017-01-02T00:00Z"))]);
      && ClassifyText(env, TypeConfig, name, col) == Err(DtypeCheck(name))
      && ClassifyText(env, Defaults, name, col) == Err(DtypeCheck(name))
  {
    var a, b := Str("2017-01-01T00:00Z"), Str("2017-01-02T00:00Z");
    var col := Column(Object, [Val(a), Val(b)]);
    UtcStampFacts(env, a, b);
    ParsedTimestampsAreDatetime(env, name, col);
    DtypeCheckIff(env, Defaults, name, col);
  }

  /**
   * Numbers next to timestamps are "mixed" to `infer_dtype`, so the accessor
   * accepts them and both become NaN; numbers alone are refused.
   */
  lemma AccessorExamples(env: Env, name: string)
    ensures ConvertPercent(env, name, Column(Object, [Val(Num(1.5)), Val(Stamp(0))]))
      == Ok(Column(Numeric, [Na(NaN), Na(NaN)]))
    ensures ConvertPercent(env, name, Column(Object, [Val(Num(1.5)), Na(NoneObj)])) == Err(StrAccessor(name))
  {
    var mixed := [Val(Num(1.5)), Val(Stamp(0))];
    assert mixed[1..] == [Val(Stamp(0))];
    assert Present(mixed) == [Num(1.5), Stamp(0)];
    assert !StrAccessorRefuses(Present(mixed)) by {
      assert !Present(mixed)[0].Stamp? && !Present(mixed)[1].Num?;
    }
    assert mixed[1..][1..] == [];
    assert !IsStrCell(mixed[0]) && !IsStrCell(mixed[1]);
    var r := ConvertCells(env, mixed);
    assert r.Ok? && |r.value| == 2 && r.value[0] == Na(NaN) && r.value[1] == Na(NaN);
    assert r.value == [Na(NaN), Na(NaN)];
    var nums := [Val(Num(1.5)), Na(NoneObj)];
    assert nums[1..] == [Na(NoneObj)];
    assert Present(nums) == [Num(1.5)];
  }

  /** Two equal-length codes sharing `-` are structured text. */
  lemma StructuredTextExamples(cfg: Config, name: string)
    requires cfg.structureTextDetection
    ensures Resolve(cfg, name, Column(Object, [Val(Str("a-1")), Val(Str("b-2"))]), [3, 3]).value.vtype == TextSt
  {
    var a := [Val(Str("a-1")), Val(Str("b-2"))];
    assert Present(a)[0] == Str("a-1");
    assert '-' in CommonChars("a-1", a);
  }

  /** Two equal-length codes sharing no character stay text. */
  lemma UnstructuredTextExample(cfg: Config, name: string)
    requires cfg.structureTextDetection
    ensures Resolve(cfg, name, Column(Object, [Val(Str("ab")), Val(Str("cd"))]), [2, 2]).value.vtype == Text
  {
    var b := [Val(Str("ab")), Val(Str("cd"))];
    assert Present(b)[0] == Str("ab");
    assert CommonChars("ab", b) == {};
  }
}

=== FILE: values.dfy ===
/**
 * The data the classifier works on: the cells of a column, the column's
 * storage kind (its pandas dtype), the six variable types, the record the
 * classifier returns per column, and the library behaviour that is passed in
 * rather than reimplemented.
 */
module Values {
  import opened Wrappers

  /** A non-missing cell value: a number, a Python string, or a timestamp. */
  datatype Value = Num(x: real) | Str(s: string) | Stamp(t: int)

  /**
   * The three markers pandas treats as missing (`count`, `dropna`, `notnull`):
   * a float NaN, Python's None, and pandas' NaT. They differ only in how
   * `'%s'` renders them.
   */
  datatype Missing = NaN | NoneObj | NaT

  /** A cell of a column: a missing marker or a value. */
  datatype Cell = Na(kind: Missing) | Val(value: Value)

  /**
   * The storage kind of a column as the pandas dtype predicates see it.
   * `Object` is the string-like object dtype; `Datetime64` is zone-less
   * timestamp storage and `DatetimeTz` timestamp storage at one fixed UTC
   * offset (in seconds); a categorical column keeps its `ordered` flag and
   * its category list.
   */
  datatype Dtype =
    | Numeric
    | Object
    | Datetime64
    | DatetimeTz(offset: int)
    | Categorical(ordered: bool, cats: seq<Value>)
    | Unsupported

  datatype Column = Column(dtype: Dtype, cells: seq<Cell>)

  /** One labelled column of a table; a table is its columns in order. */
  datatype Field = Field(name: string, column: Column)

  type Table = seq<Field>

  /** The variable types: number, category, datetime, text, text_st, group_number. */
  datatype VType = Number | Category | Datetime | Text | TextSt | GroupNumber

  /** The record the classifier returns for one column. */
  datatype Detected = Detected(name: string, vtype: VType, ordered: bool, categories: seq<Value>)

  /** The classifier's three switches. */
  datatype Config = Config(categoryDetection: bool, structureTextDetection: bool, datetimeToCategory: bool)

  /** The switches `var_detection` uses (all defaults on). */
  const Defaults := Config(true, true, true)

  /** The switches `type_of_var` uses: datetime columns are never collapsed to categories. */
  const TypeConfig := Config(true, true, false)

  /**
   * Library behaviour the model takes as given:
   * `showNum` and `showStamp` are Python's `'%s'` rendering of a number and a
   * timestamp, `parseStamp` is `pd.to_datetime` on one value (None when it
   * cannot parse), `zoneOf` is the UTC offset in seconds that the parse reads
   * from a value (None for a value without a zone, such as
   * "2017-01-01 00:00"; Some(0) for "2017-01-01T00:00Z"), and `parseFloat`
   * is `float()` on a string.
   */
  datatype Env = Env(
    showNum: real -> string,
    showStamp: int -> string,
    parseStamp: Value -> Option<int>,
    zoneOf: Value -> Option<int>,
    parseFloat: string -> Option<real>)

  /** The exceptions that escape a classification or a grouping pass. */
  datatype Error =
    | StrAccessor(column: string)
    | FloatParse(column: string, text: string)
    | NoFirstValue(column: string)
    | DtypeCheck(column: string)
    | DuplicateLabel(column: string)
    | MissingGroup(index: nat)

  predicate Distinct<T(==)>(s: seq<T>) {
    forall i, j :: 0 <= i < j < |s| ==> s[i] != s[j]
  }

  /** `'%s' % v` */
  function Render(env: Env, v: Value): string {
    match v
    case Str(s) => s
    case Num(x) => env.showNum(x)
    case Stamp(t) => env.showStamp(t)
  }

  /** `'%s' % c` */
  function Show(env: Env, c: Cell): string {
    match c
    case Na(NaN) => "nan"
    case Na(NoneObj) => "None"
    case Na(NaT) => "NaT"
    case Val(v) => Render(env, v)
  }

  /** The non-missing values of a column, in order (`dropna()`). */
  function Present(cells: seq<Cell>): (vs: seq<Value>)
    ensures |vs| <= |cells|
    ensures forall v :: v in vs <==> Val(v) in cells
  {
    if |cells| == 0 then []
    else
      assert cells == [cells[0]] + cells[1..];
      (if cells[0].Val? then [cells[0].value] else []) + Present(cells[1..])
  }

  /** `dropna()` works cell by cell: on a concatenation it concatenates. */
  lemma {:induction false} PresentConcat(a: seq<Cell>, b: seq<Cell>)
    ensures Present(a + b) == Present(a) + Present(b)
  {
    if |a| == 0 {
      assert a + b == b;
    } else {
      assert (a + b)[1..] == a[1..] + b;
      PresentConcat(a[1..], b);
    }
  }

  /** The positions of the non-missing cells. */
  function ValuePositions(cells: seq<Cell>): (ps: set<nat>)
    ensures forall j: nat :: j in ps <==> j < |cells| && cells[j].Val?
  {
    if |cells| == 0 then {}
    else
      var k := |cells| - 1;
      assert forall j :: 0 <= j < k ==> cells[..k][j] == cells[j];
      ValuePositions(cells[..k]) + if cells[k].Val? then {k} else {}
  }

  /** `count()` is the number of non-missing positions. */
  lemma {:induction false} PresentCount(cells: seq<Cell>)
    ensures |Present(cells)| == |ValuePositions(cells)|
  {
    if |cells| > 0 {
      var k := |cells| - 1;
      var init := cells[..k];
      PresentCount(init);
      assert cells == init + [cells[k]];
      PresentConcat(init, [cells[k]]);
      if cells[k].Val? {
        assert k !in ValuePositions(init);
      }
    }
  }

  /** `count()`: the number of non-missing cells. */
  function Count(cells: seq<Cell>): nat {
    |Present(cells)|
  }

  /** Two columns with the same missing cells have the same non-missing count. */
  lemma {:induction false} SameShapeSameCount(a: seq<Cell>, b: seq<Cell>)
    requires |a| == |b|
    requires forall j :: 0 <= j < |a| ==> (a[j].Na? <==> b[j].Na?)
    ensures Count(a) == Count(b)
  {
    if |a| > 0 {
      assert forall j :: 0 <= j < |a[1..]| ==> a[1..][j] == a[j + 1] && b[1..][j] == b[j + 1];
      SameShapeSameCount(a[1..], b[1..]);
    }
  }

  /** The distinct values of `xs`, each kept at its first occurrence. */
  function Dedup(xs: seq<Value>): (r: seq<Value>)
    ensures forall v :: v in r <==> v in xs
    ensures Distinct(r)
    ensures |r| <= |xs|
  {
    if |xs| == 0 then []
    else
      var r := Dedup(xs[..|xs| - 1]);
      assert xs == xs[..|xs| - 1] + [xs[|xs| - 1]];
      if xs[|xs| - 1] in r then r else r + [xs[|xs| - 1]]
  }

  /** `dropna().unique()` */
  function DistinctValues(cells: seq<Cell>): seq<Value> {
    Dedup(Present(cells))
  }

  /** `len(dropna().unique())` */
  function DistinctCount(cells: seq<Cell>): nat {
    |DistinctValues(cells)|
  }

  /** The distinct count never exceeds the non-missing count, and is positive with it. */
  lemma DistinctCountBounds(cells: seq<Cell>)
    ensures DistinctCount(cells) <= Count(cells)
    ensures Count(cells) > 0 ==> DistinctCount(cells) > 0
  {
    var vs := Present(cells);
    if |vs| > 0 {
      assert vs[0] in DistinctValues(cells);
    }
  }

  /**
   * How a categorical column stores its cells: every missing marker becomes
   * NaN, and every value stays where it is.
   */
  function MissingAsNaN(cells: seq<Cell>): (r: seq<Cell>)
    ensures |r| == |cells|
    ensures forall j :: 0 <= j < |cells| ==> (cells[j].Val? ==> r[j] == cells[j]) && (cells[j].Na? ==> r[j] == Na(NaN))
  {
    if |cells| == 0 then []
    else [if cells[0].Na? then Na(NaN) else cells[0]] + MissingAsNaN(cells[1..])
  }

  /** Every missing cell is a NaN, as in numeric and categorical storage. */
  predicate NaNMissing(cells: seq<Cell>) {
    forall j :: 0 <= j < |cells| && cells[j].Na? ==> cells[j] == Na(NaN)
  }

  /** Cells whose missing entries are already NaN are stored as they are. */
  lemma MissingAsNaNKeeps(cells: seq<Cell>)
    requires NaNMissing(cells)
    ensures MissingAsNaN(cells) == cells
  {
    assert forall j :: 0 <= j < |cells| ==> MissingAsNaN(cells)[j] == cells[j];
  }

  /** Turning the missing markers into NaN keeps `dropna()`, and so the count and the distinct values. */
  lemma {:induction false} MissingAsNaNPresent(cells: seq<Cell>)
    ensures Present(MissingAsNaN(cells)) == Present(cells)
  {
    if |cells| > 0 {
      var r := MissingAsNaN(cells);
      assert r[1..] == MissingAsNaN(cells[1..]);
      MissingAsNaNPresent(cells[1..]);
    }
  }

  /**
   * `astype('category')`: a categorical column keeps its categories; any
   * other column gets unordered categories holding each distinct value once,
   * and its missing entries are stored as NaN.
   */
  function ToCategory(col: Column): (c: Column)
    ensures c.dtype.Categorical? && |c.cells| == |col.cells| && Present(c.cells) == Present(col.cells)
    ensures col.dtype.Categorical? ==> c == col
    ensures !col.dtype.Categorical? ==> forall j :: 0 <= j < |col.cells| ==>
      c.cells[j] == if col.cells[j].Na? then Na(NaN) else col.cells[j]
    ensures !col.dtype.Categorical? ==> !c.dtype.ordered && Distinct(c.dtype.cats)
    ensures !col.dtype.Categorical? ==> forall v :: v in c.dtype.cats <==> Val(v) in col.cells
  {
    if col.dtype.Categorical? then col
    else
      MissingAsNaNPresent(col.cells);
      Column(Categorical(false, DistinctValues(col.cells)), MissingAsNaN(col.cells))
  }
}

=== FILE: wrappers.dfy ===
/** Failure-compatible wrappers shared by the classifier and the grouping scan. */
module Wrappers {

  /** A value that may be absent: a missing cell, or a lookup that found nothing. */
  datatype Option<+T> = None | Some(value: T)

  /** The outcome of an operation that may raise. */
  datatype Result<+R, +E> = Ok(value: R) | Err(error: E) {

    predicate IsFailure() {
      Err?
    }

    function PropagateFailure<U>(): Result<U, E>
      requires Err?
    {
      Err(error)
    }

    function Extract(): R
      requires Ok?
    {
      value
    }
  }
}
